=== FILE: README.md ===
# markdown-it wikilinks-plus, modelled in Dafny

This project models the core of the markdown-it plugin `wikilinks-plus`.

The plugin is an inline rule for the markdown-it parser. It recognises two forms at the parser's cursor:

- `[[target|label]]`, a wikilink, which becomes `link_open`, a label token (`text` or `html_inline`) and `link_close`;
- `![[file.png|alt text|WxH]]`, an image embed, which becomes one `image` token with a `text` child holding its alt text.

An embed whose target has no image extension falls back to a wikilink.

Before the rule is installed, the options are normalised in place:

- the two absolute base URLs get a leading and a trailing slash;
- the two relative base URLs get a trailing slash and lose any leading slash;
- every image extension is lower-cased and trimmed, and one leading dot is dropped. An entry written `.` therefore becomes the empty extension, and then every target without an extension is an image.

Modules:

- `JsString`: the JavaScript string operations the code uses (`trim`, `toLowerCase`, `split`, `join`, `indexOf`, `startsWith`, `replace`).
- `JsNumber`: which strings `!isNaN(Number(s))` accepts.
- `NodePath`: POSIX `path.extname` and `path.parse().name`.
- `ProperUrlJoin`: `proper-url-join` as the plugin calls it.
- `MarkdownIt`: attribute lists with `attrSet`/`attrGet`, tokens, and the inline parser state.
- `Config`: the option records and the library services.
- `Utils`: `utils.js`.
- `Wikilinks`: `index.js`.

`normalizeOptions`, `processImageEmbed`, `processWikilink` and `wikilinksRule` change state. `NormalizeOptions`, `ProcessImageEmbed` and `ProcessWikilink` are module-level methods of `Utils` that take the `Options` or `InlineState` object they update as an argument. `WikilinksRule` is a method of the `WikilinksPlus` class. Each is proved against a function that states its result (`NormalizedPageLink`, `NormalizedImageEmbed`, `ImageToken`, `LinkTokens`, `Scan` and `Emit`), and the properties are proved about those functions.

The code is followed where it departs from its documentation:

- `isDimension("200x")` holds, because `Number("")` is `0` (see `DigitsDimension`).
- An upper-case `X` passes `isDimension`, but the style only splits on a lower-case `x`. The style then reads `height: undefinedpx` (see `DisplayStyleUpperX`).
- The closing `]]` only has to *start* before `posMax`. The cursor can therefore end one past the bound (see `CloserMayStraddle`).

## Model

| member | source | states |
|---|---|---|
| JsString.Trim | index.js:97 | the trimmed string neither starts nor ends with white space; `TrimInfix` adds that only white space was removed |
| JsString.TrimInfix | index.js:97 | the trimmed text is a contiguous piece of the input, and everything cut off before and after it is white space |
| JsString.TrimAround | utils.js:37 | white space around text that neither starts nor ends with white space is exactly what trimming removes |
| JsString.TrimIdempotent | index.js:107 | trimming twice is trimming once |
| JsString.TrimBlank | index.js:99 | a string trims to empty exactly when every character is white space |
| JsString.IndexOf | index.js:93 | `indexOf(p, from)` finds the first occurrence at or after `from`, or reports none when there is none |
| JsString.SplitJoin | index.js:106 | `split` then `join` with the same separator gives back the string |
| JsString.JoinSplit | index.js:106 | splitting a join of separator-free parts gives back the parts |
| JsString.SplitCount | utils.js:94-96 | `split` yields one more piece than there are separators |
| JsString.ToLowerNoUpper | utils.js:169 | lower-casing leaves no ASCII capital |
| JsNumber.DigitsAreNumber | utils.js:98 | a non-empty run of decimal digits is a number to `Number` |
| JsNumber.EmptyIsNumber | utils.js:98 | `Number("")` is not `NaN` |
| JsNumber.IsNumber | utils.js:98 | `!isNaN(Number(s))`; characterised by `DigitsAreNumber` and `EmptyIsNumber` |
| NodePath.ParseName | utils.js:136 | the parsed name followed by the extension is the base name |
| NodePath.ExtNameOfDotted | utils.js:169 | `dir/stem.ext` has extension `.ext` and name `stem` without its directory |
| NodePath.ExtNameWithoutDot | utils.js:169 | a path without a dot has the empty extension |
| ProperUrlJoin.UrlJoin | utils.js:57 | the leading and trailing slash policies are honoured, and no slash is ever doubled |
| ProperUrlJoin.SegmentsOfBuild | utils.js:57 | rebuilding a URL from its segments and splitting it again gives the same segments |
| ProperUrlJoin.UrlJoinStable | utils.js:57 | joining an already joined URL with `''` under the same policy changes nothing |
| ProperUrlJoin.UrlJoinSegments | utils.js:236-241 | the joined URL's non-empty segments are those of its parts, in order, whatever the slash policies |
| MarkdownIt.GetAfterSet | utils.js:289 | after `attrSet(name, v)` the name reads `v` and every other name reads as before |
| MarkdownIt.SetAppends | utils.js:289 | `attrSet` of a new name appends it at the end |
| MarkdownIt.SetIndex | utils.js:304-307 | `attrSet` of a present name overwrites that pair in place |
| MarkdownIt.SetKeepsUnique | utils.js:289 | `attrSet` never duplicates a name |
| MarkdownIt.GetAfterSetAll | utils.js:280 | after an object spread, a name has the spread's value if it has one, and otherwise its old value |
| MarkdownIt.SetAllKeepsFirst | utils.js:280 | a spread does not move the first key (`src`) |
| MarkdownIt.InlineState.Push | utils.js:246 | `state.push` appends exactly one token |
| Utils.NormalizeAbsoluteURL | utils.js:49-58 | the result starts and ends with `/`, has no `//`, and keeps exactly the path segments of the `path.normalize`d URL, in order |
| Utils.AbsoluteCandidate | utils.js:50-55 | the normalised URL with a leading `/` added only when missing: it starts with `/`, ends with the normalised URL, and keeps its segments |
| Utils.AbsoluteIdempotent | utils.js:49-58 | normalising twice is normalising once when `path.normalize` keeps the result |
| Utils.NormalizeRelativeURL | utils.js:68-83 | the result ends with `/`, has no `//`, starts with `/` only when it is `/`, and keeps exactly the path segments of the `path.normalize`d `./` candidate, in order |
| Utils.RelativeCandidate | utils.js:69-74 | the URL without its leading slashes, with `./` added only when missing: it starts with `./` and ends with the stripped URL |
| Utils.RelativeJoin | utils.js:77-82 | turning a bare `.` into `./` and forcing the trailing slash keeps the segments and gives the slash shape above |
| Utils.RelativeJoinStable | utils.js:77-82 | the tail of the normalisation is stable under re-application |
| Utils.RelativeIgnoresLeadingSlash | utils.js:70 | a leading slash makes no difference |
| Utils.RelativeDot | utils.js:78-80 | a URL that normalises to `.` becomes `./` |
| Utils.RelativeIdempotent | utils.js:68-83 | normalising twice is normalising once when `path.normalize` keeps the result |
| Utils.NormalizeExt | utils.js:37 | a normalised extension has no ASCII capital; `NormalizeDottedEntry` and `NormalizeUndottedEntry` state the trim and the dot removal |
| Utils.NormalizeExtKeeps | utils.js:37 | a lower-case, trimmed extension without a leading dot is left as it is |
| Utils.NormalizeExts | utils.js:36-38 | the list keeps its length and order, and each entry is normalised |
| Utils.NormalizedPageLink | utils.js:15-21 | both page base URLs get the slash shape and the segments of their normalisers, and every other page option is unchanged |
| Utils.NormalizedImageEmbed | utils.js:25-38 | both image base URLs get the slash shape and the segments of their normalisers, every extension is normalised, and every other image option is unchanged |
| Utils.NormalizeOptions | utils.js:12-39 | the options object is rewritten in place to its normalised profiles |
| Utils.NotDimensionUnlessOneX | utils.js:94-96 | without exactly one `x`/`X` the text is not a dimension |
| Utils.DimensionOfSides | utils.js:92-99 | `W x H` is a dimension exactly when both lower-cased sides are numbers |
| Utils.DigitsDimension | utils.js:92-99 | digits, `x` or `X`, then digits or nothing, form a dimension |
| Utils.DimensionNotEmpty | utils.js:301 | a dimension is never empty, so the later truthiness test agrees with `isDimension` |
| Utils.DisplayStyleOfSides | utils.js:301-307 | for `WxH` the style carries width `W` and height `H` |
| Utils.DisplayStyleUpperX | utils.js:302-306 | with an upper-case `X` the whole text is the width and the height reads `undefined` |
| Utils.DetermineAltText | utils.js:122-148 | there is no alt text exactly when the raw alt text is empty and the policy is `false` |
| Utils.AltTextPriority | utils.js:126-147 | raw alt text wins, then `false`, `true`, a string (empty kept as is) and any other value, in that order |
| Utils.AltTextFromFileName | utils.js:135-136 | the `true` policy uses the file name without its directory and extension |
| Utils.ClassifyByExtension | utils.js:167-177 | `stem.ext` is an image exactly when the lower-cased `ext` is listed |
| Utils.CheckEmbedType | utils.js:167-177 | characterised by `ClassifyByExtension` and `ClassifyWithoutDot` |
| Utils.NormalizeDottedEntry | utils.js:36-38 | an entry such as ` .PNG ` normalises to `png`: surrounding white space and one leading dot are removed and the rest is lower-cased |
| Utils.NormalizeUndottedEntry | utils.js:36-38 | an entry without a leading dot such as ` PNG ` normalises to `png`: only the surrounding white space goes and the rest is lower-cased |
| Utils.DotEntryListsNoExtension | utils.js:36-38 | the entry `.` normalises to the empty extension, which makes a target without a dot an image |
| Utils.ClassifyWithoutDot | utils.js:167-177 | a target without a dot is an image exactly when the empty extension is listed |
| Utils.ClassifyAfterNormalize | utils.js:36-38 | an entry written `.PNG` makes `photo.Png` an image |
| Utils.ResolveFields | utils.js:193-214 | there are dimensions exactly when there are several parts and the last is a dimension, and they are that last part |
| Utils.AltTextAfterTarget | utils.js:208-213 | with no trailing dimension, the alt text is all of the text after the first pipe, pipes included |
| Utils.AltTextBeforeDimensions | utils.js:200-207 | with a trailing dimension, the alt text is what lies between the target and the dimension |
| Utils.DimensionsOnly | utils.js:200-207 | a target, one pipe and a dimension give that dimension and an empty alt text |
| Utils.ImageUrl | utils.js:218-241 | the image URL has a leading slash exactly when absolute URLs are forced (or it is `/`), and never a trailing slash unless it is `/` |
| Utils.ImageUrlSegments | utils.js:218-241 | the image URL's segments are those of the chosen base URL, then of the normalised, post-processed target, then of the suffix |
| Utils.FinalAltText | utils.js:252-256 | the token gets no alt text exactly when the alt text is empty and the policy is `false` |
| Utils.MergedAttrs | utils.js:280-286 | `src` comes first and names are unique |
| Utils.ImageAttrsPrecedence | utils.js:280-307 | extra attributes override `src` and `alt`, and the computed `style` is present exactly when there are dimensions |
| Utils.ImageAttrs | utils.js:301-307 | the `style` attribute set only when there are dimensions; characterised by `ImageAttrsPrecedence` |
| Utils.ImageAttrsKeepExtras | utils.js:260-290 | every other extra attribute reaches the token with its value |
| Utils.ImageTokenAltChild | utils.js:293-298 | the image token has one text child whose content is the token's `alt` attribute |
| Utils.SetEach | utils.js:288-290 | setting an object's distinct keys on a fresh token yields exactly its entries, in order |
| Utils.ProcessImageEmbed | utils.js:190-310 | pushes exactly the image token and reports success |
| Utils.LabelAfterFirstPipe | utils.js:329-330 | the link label is everything after the first pipe, pipes included |
| Utils.LabelWithoutPipe | utils.js:329-330 | without a pipe the label is the target |
| Utils.LinkUrl | utils.js:332-359 | the href has a leading slash exactly when absolute links are forced (or it is `/`), and never a trailing slash unless it is `/` |
| Utils.LinkUrlSegments | utils.js:332-359 | the href's segments are those of the chosen base URL, then of the normalised, post-processed target, then of the suffix |
| Utils.LinkTokensShape | utils.js:340-381 | a wikilink is `link_open` with the escaped href, a label token of the configured kind, and `link_close`; nesting balances |
| Utils.LinkLabelFromPipe | utils.js:337-378 | the label token's content comes from the label text alone |
| Utils.ProcessWikilink | utils.js:323-383 | pushes exactly the three link tokens and reports success |
| Utils.IsDimension | utils.js:92-99 | characterised by `NotDimensionUnlessOneX`, `DimensionOfSides` and `DigitsDimension` |
| Utils.DisplayStyle | utils.js:302-306 | characterised by `DisplayStyleOfSides` and `DisplayStyleUpperX` |
| Utils.ExtraAttrs | utils.js:260-277 | the hook's or the object's attributes, with distinct names like any object's keys; characterised through `ImageAttrsPrecedence` and `ImageAttrsKeepExtras` |
| Utils.ImageToken | utils.js:245-307 | characterised by `ImageAttrsPrecedence`, `ImageAttrsKeepExtras`, `ImageTokenAltChild` and `FinalAltText` |
| Utils.LinkLabel | utils.js:329-330 | characterised by `LabelAfterFirstPipe` and `LabelWithoutPipe` |
| Utils.LinkTokens | utils.js:339-381 | characterised by `LinkTokensShape` and `LinkLabelFromPipe` |
| Wikilinks.ScanSound | index.js:83-99 | a match has an opener, the first `]]` after it starting before `posMax`, and non-blank content |
| Wikilinks.ScanAccepts | index.js:83-99 | an opener, a first closer before `posMax` and non-blank content always make a match |
| Wikilinks.ScanNeedsOpener | index.js:83-90 | without `![[` or `[[` nothing matches |
| Wikilinks.ScanNeedsCloser | index.js:93-94 | without a `]]` starting before `posMax` nothing matches |
| Wikilinks.ScanRejectsBlank | index.js:97-99 | blank content up to the first `]]` does not match |
| Wikilinks.CloserMayStraddle | index.js:94 | in `[[a]]` with `posMax` 4 the cursor ends at 5 |
| Wikilinks.EmitShape | index.js:110-129 | exactly the embeds with an image extension become one `image` token; everything else becomes a three-token link |
| Wikilinks.Recognize | index.js:75-99 | the scanning steps compute `Scan` |
| Wikilinks.RawTarget | index.js:106-107 | characterised by `RawTargetBeforePipe` and `RawTargetWithoutPipe` |
| Wikilinks.RawTargetBeforePipe | index.js:106-107 | the target is the trimmed text before the first pipe |
| Wikilinks.RawTargetWithoutPipe | index.js:106-107 | without a pipe the target is the whole trimmed content |
| Wikilinks.KeepAltText | index.js:66-68 | the identity alt-text hook; the constructor's ensures state that it is installed exactly when the user gave no hook |
| Wikilinks.Scan | index.js:83-99 | characterised by `ScanSound`, `ScanAccepts`, `ScanNeedsOpener`, `ScanNeedsCloser` and `ScanRejectsBlank` |
| Wikilinks.Emit | index.js:110-129 | characterised by `EmitShape` |
| Wikilinks.WikilinksPlus.constructor | index.js:60-71 | the identity hook is installed when the user gave none, and then the options are normalised |
| Wikilinks.WikilinksPlus.WikilinksRule | index.js:74-130 | succeeds exactly outside silent mode on a match; then the cursor moves forward past `]]` and the construct's tokens are appended; otherwise nothing changes |
| Wikilinks.WikilinksPlus.EmitMatch | index.js:106-129 | the `switch` pushes exactly the tokens `Emit` describes and reports success |

## Left out

- Library services: `path.normalize`, `md.utils.escapeHtml` and `md.renderInline` are function-valued parameters, since their code is not part of this model.
- `sanitize-filename`: used only by a default option, so it is not part of this model.
- `proper-url-join`: modelled only as the plugin uses it, with string parts and the two slash options. Query strings are not recognised: a suffix starting with `?` (such as `?v=123`) becomes one more path segment, so the model puts a slash before it (`/img/a.png/?v=123`) where the library appends it directly (`/img/a.png?v=123`). Protocol-relative URLs are not handled either.
- `toLowerCase`: lower-cases ASCII letters only; no other Unicode case mapping is modelled.
- `trim`: strips the ECMAScript white-space and line-terminator characters. Strings are sequences of characters, not UTF-16 code units.
- `console.warn`: the warnings in `determineAltText` and in the rule's unreachable `default` branch are dropped. Their return values are modelled.
- The unreachable `default` case of the rule's `switch` is left out, since `checkEmbedType` only returns `image` or `link`.
- `defaultOptions` and the deep merge with `extend`: the constructor takes the merged options, plus whether the user supplied an alt-text hook.
- Rule registration with `md.inline.ruler.before` is left out, since it only hands the rule to the parser.
- `state.push`: the `level` and `pending` bookkeeping of markdown-it are not modelled. The image token is pushed after its attributes are built, with the same final result.
- JavaScript objects list integer-like keys first. Attribute order assumes no attribute name is an integer.
- `htmlAttributes`: the hook is a function of its context; the object form is a list of distinct names.
- Utils.AbsoluteIdempotent: holds only when `path.normalize` leaves the normalised URL unchanged, since `path.normalize` is a parameter.
- Utils.RelativeIdempotent: likewise conditional on `path.normalize`.
- Utils.NormalizeExt: not idempotent in general, because trimming can expose a second leading dot. Only `NormalizeExtKeeps` is stated.
- Utils.NormalizeOptions: assigns each profile in one update rather than one field at a time. The final state is the same.

=== FILE: config.dfy ===
/**
 * The plugin's configuration after user options were merged over the
 * defaults: one profile for page links and one for image embeds. User hooks
 * are function values; the library services the plugin calls but whose code
 * is not part of this model are gathered in `Services`.
 */
module Config {
  import opened Wrappers
  import opened MarkdownIt

  /** `path.normalize`, `md.utils.escapeHtml` and `md.renderInline` (with the parse environment fixed). */
  datatype Services = Services(
    normalize: string -> string,
    escapeHtml: string -> string,
    renderInline: string -> string)

  /** The `defaultAltText` option: a boolean, a string, or (wrongly) some other value. */
  datatype AltPolicy = AltFlag(enabled: bool) | AltString(text: string) | AltOther

  /** What an `htmlAttributes` hook is called with. */
  datatype AttrContext = AttrContext(
    originalHref: string,
    altText: Option<string>,
    dimensions: string,
    embedType: string)

  /** The `htmlAttributes` option: a hook, an object, or anything else (which adds nothing). */
  datatype HtmlAttributes =
    | AttrHook(hook: AttrContext -> AttrList)
    | AttrObject(attrs: AttrList)
    | NoAttrs

  datatype PageLink = PageLink(
    absoluteBaseURL: string,
    relativeBaseURL: string,
    forceAllLinksAbsolute: bool,
    postProcessLinkTarget: string -> string,
    postProcessLinkLabel: string -> string,
    allowLinkLabelFormatting: bool,
    uriSuffix: string)

  /** `postProcessImageTarget` is `None` where the option is falsy. */
  datatype ImageEmbed = ImageEmbed(
    absoluteBaseURL: string,
    relativeBaseURL: string,
    forceAllImageUrlsAbsolute: bool,
    uriSuffix: string,
    htmlAttributes: HtmlAttributes,
    postProcessImageTarget: Option<string -> string>,
    postProcessAltText: string -> string,
    imageFileExt: seq<string>,
    defaultAltText: AltPolicy)

  /** The merged options object, whose fields setup rewrites in place. */
  class Options {
    var pageLink: PageLink
    var imageEmbed: ImageEmbed

    constructor (pageLink: PageLink, imageEmbed: ImageEmbed)
      ensures this.pageLink == pageLink && this.imageEmbed == imageEmbed
    {
      this.pageLink := pageLink;
      this.imageEmbed := imageEmbed;
    }
  }
}

=== FILE: js_number.dfy ===
/**
 * `!isNaN(Number(s))` for a string `s`: JavaScript's string-to-number conversion
 * yields a number exactly when `s`, trimmed, is empty (giving 0) or is an
 * ECMA-262 StringNumericLiteral. Only acceptance is modelled, never the value.
 */
module JsNumber {
  import opened JsString

  predicate IsDigit(c: char) {
    '0' <= c <= '9'
  }

  predicate AllDigits(s: string) {
    forall i | 0 <= i < |s| :: IsDigit(s[i])
  }

  predicate IsHexDigit(c: char) {
    IsDigit(c) || 'a' <= c <= 'f' || 'A' <= c <= 'F'
  }

  /** The index of the first character of `s` that is in `cs`, or `|s|` when there is none. */
  function FirstIn(s: string, cs: string): (k: nat)
    ensures k <= |s|
    ensures forall i | 0 <= i < k :: s[i] !in cs
    ensures k < |s| ==> s[k] in cs
  {
    if s == [] || s[0] in cs then 0 else 1 + FirstIn(s[1..], cs)
  }

  /** NonDecimalIntegerLiteral without separators: `0x…`, `0o…`, `0b…` (either case of the letter). */
  predicate IsNonDecimalInteger(t: string) {
    && |t| > 2 && t[0] == '0'
    && (|| (t[1] in "xX" && forall i | 2 <= i < |t| :: IsHexDigit(t[i]))
        || (t[1] in "oO" && forall i | 2 <= i < |t| :: '0' <= t[i] <= '7')
        || (t[1] in "bB" && forall i | 2 <= i < |t| :: t[i] == '0' || t[i] == '1'))
  }

  /** The digits-and-point part of a decimal literal: `D+`, `D+.D*` or `.D+`. */
  predicate IsMantissa(m: string) {
    var d := FirstIn(m, ".");
    && AllDigits(m[..d])
    && if d == |m| then d > 0 else AllDigits(m[d + 1..]) && |m| > 1
  }

  /** An optional ExponentPart: empty, or `e`/`E`, an optional sign and `D+`. */
  predicate IsExponent(x: string) {
    || x == []
    || (&& |x| >= 2 && x[0] in "eE"
        && var digits := if x[1] in "+-" then x[2..] else x[1..];
           digits != [] && AllDigits(digits))
  }

  /** StrUnsignedDecimalLiteral: `Infinity`, or a mantissa followed by an optional exponent. */
  predicate IsUnsignedDecimal(t: string) {
    || t == "Infinity"
    || var k := FirstIn(t, "eE"); IsMantissa(t[..k]) && IsExponent(t[k..])
  }

  /** StrDecimalLiteral: an unsigned decimal literal with an optional sign. */
  predicate IsDecimal(t: string) {
    if t != [] && t[0] in "+-" then IsUnsignedDecimal(t[1..]) else IsUnsignedDecimal(t)
  }

  /** `!isNaN(Number(s))`. */
  predicate IsNumber(s: string) {
    var t := Trim(s);
    t == [] || IsNonDecimalInteger(t) || IsDecimal(t)
  }

  /** Without a character from `cs`, `FirstIn` runs to the end. */
  lemma {:induction false} FirstInNone(s: string, cs: string)
    requires forall i | 0 <= i < |s| :: s[i] !in cs
    ensures FirstIn(s, cs) == |s|
  {
    if s != [] {
      FirstInNone(s[1..], cs);
    }
  }

  /** Digits hold no sign, point or exponent letter. */
  lemma DigitsNoMarks(s: string)
    requires AllDigits(s)
    ensures forall i | 0 <= i < |s| :: s[i] !in "eE" && s[i] !in "." && s[i] !in "+-"
  {
    forall i | 0 <= i < |s| ensures s[i] !in "eE" && s[i] !in "." && s[i] !in "+-" {
      assert IsDigit(s[i]);
    }
  }

  /** A non-empty run of decimal digits is a number. */
  lemma DigitsAreNumber(s: string)
    requires s != [] && AllDigits(s)
    ensures IsNumber(s)
  {
    TrimUntouched(s);
    DigitsNoMarks(s);
    FirstInNone(s, "eE");
    FirstInNone(s, ".");
    assert IsMantissa(s[..|s|]) by {
      assert s[..|s|] == s;
    }
    assert IsUnsignedDecimal(s);
  }

  /** `Number("")` is `0`, so the empty string is a number. */
  lemma EmptyIsNumber()
    ensures IsNumber("")
  {
    assert Trim("") == "";
  }
}

=== FILE: js_string.dfy ===
/**
 * The JavaScript string primitives the plugin relies on, over `char`: `trim`, `toLowerCase`, `split` and `join` on one separator
 * character, `startsWith`, `indexOf`, and the two anchored `replace` calls.
 */
module JsString {
  import opened Wrappers

  /** The characters `String.prototype.trim` removes: ECMA-262 WhiteSpace and LineTerminator. */
  predicate IsWhiteSpace(c: char) {
    || c == '\t' || c == '\n' || c == '\U{000B}' || c == '\U{000C}' || c == '\r' || c == ' '
    || c == '\U{00A0}' || c == '\U{1680}' || ('\U{2000}' <= c <= '\U{200A}')
    || c == '\U{2028}' || c == '\U{2029}' || c == '\U{202F}' || c == '\U{205F}'
    || c == '\U{3000}' || c == '\U{FEFF}'
  }

  /** The longest suffix of `s` that does not start with white space. */
  function TrimStart(s: string): (r: string)
    ensures |r| <= |s| && r == s[|s| - |r|..]
    ensures forall i | 0 <= i < |s| - |r| :: IsWhiteSpace(s[i])
    ensures r == [] || !IsWhiteSpace(r[0])
  {
    if s != [] && IsWhiteSpace(s[0]) then TrimStart(s[1..]) else s
  }

  /** The longest prefix of `s` that does not end with white space. */
  function TrimEnd(s: string): (r: string)
    ensures |r| <= |s| && r == s[..|r|]
    ensures forall i | |r| <= i < |s| :: IsWhiteSpace(s[i])
    ensures r == [] || !IsWhiteSpace(r[|r| - 1])
  {
    if s != [] && IsWhiteSpace(s[|s| - 1]) then TrimEnd(s[..|s| - 1]) else s
  }

  /** `s.trim()`: no white space at either end (see `TrimInfix` and `TrimBlank` for the rest). */
  function Trim(s: string): (r: string)
    ensures r == [] || (!IsWhiteSpace(r[0]) && !IsWhiteSpace(r[|r| - 1]))
  {
    var t := TrimStart(s);
    var r := TrimEnd(t);
    assert r != [] ==> r[0] == t[0];
    r
  }

  /** The trimmed text is empty exactly when `s` is all white space. */
  lemma TrimBlank(s: string)
    ensures Trim(s) == [] <==> forall i | 0 <= i < |s| :: IsWhiteSpace(s[i])
  {
    var t := TrimStart(s);
    if t != [] {
      assert !IsWhiteSpace(t[0]);
      assert TrimEnd(t) != [];
    }
  }

  /** Trimming a string that has no white space at its ends changes nothing. */
  lemma TrimUntouched(s: string)
    requires s == [] || (!IsWhiteSpace(s[0]) && !IsWhiteSpace(s[|s| - 1]))
    ensures Trim(s) == s
  {
  }

  /** The trimmed text is the piece of `s` starting at some index `k`, and only white space lies around it. */
  lemma TrimInfix(s: string) returns (k: nat)
    ensures k + |Trim(s)| <= |s| && Trim(s) == s[k..k + |Trim(s)|]
    ensures forall i | 0 <= i < k :: IsWhiteSpace(s[i])
    ensures forall i | k + |Trim(s)| <= i < |s| :: IsWhiteSpace(s[i])
  {
    var t := TrimStart(s);
    k := |s| - |t|;
    var r := TrimEnd(t);
    forall i | k + |r| <= i < |s| ensures IsWhiteSpace(s[i]) {
      assert s[i] == t[i - k];
    }
  }

  /** Every character of `w` is white space. */
  predicate Blank(w: string) {
    forall i | 0 <= i < |w| :: IsWhiteSpace(w[i])
  }

  /** Leading white space is skipped by `TrimStart`. */
  lemma {:induction false} TrimStartBlank(w: string, t: string)
    requires Blank(w)
    ensures TrimStart(w + t) == TrimStart(t)
  {
    if w != [] {
      var x := w + t;
      assert x[0] == w[0] && IsWhiteSpace(x[0]);
      assert x[1..] == w[1..] + t;
      assert TrimStart(x) == TrimStart(x[1..]);
      TrimStartBlank(w[1..], t);
    } else {
      assert w + t == t;
    }
  }

  /** Trailing white space is skipped by `TrimEnd`. */
  lemma {:induction false} TrimEndBlank(t: string, w: string)
    requires Blank(w)
    ensures TrimEnd(t + w) == TrimEnd(t)
  {
    if w != [] {
      var v := w[..|w| - 1];
      var x := t + w;
      assert x[|x| - 1] == w[|w| - 1] && IsWhiteSpace(x[|x| - 1]);
      assert x[..|x| - 1] == t + v;
      assert TrimEnd(x) == TrimEnd(x[..|x| - 1]);
      TrimEndBlank(t, v);
    } else {
      assert t + w == t;
    }
  }

  /** Trimming removes exactly the white space around text whose ends are not blank. */
  lemma TrimAround(w1: string, s: string, w2: string)
    requires Blank(w1) && Blank(w2)
    requires s != [] && !IsWhiteSpace(s[0]) && !IsWhiteSpace(s[|s| - 1])
    ensures Trim(w1 + s + w2) == s
  {
    assert w1 + s + w2 == w1 + (s + w2);
    TrimStartBlank(w1, s + w2);
    assert TrimStart(s + w2) == s + w2 by { assert (s + w2)[0] == s[0]; }
    TrimEndBlank(s, w2);
  }

  /** Trimming twice is trimming once. */
  lemma TrimIdempotent(s: string)
    ensures Trim(Trim(s)) == Trim(s)
  {
    TrimUntouched(Trim(s));
  }

  /** `toLowerCase` on one code unit; only the ASCII letters are mapped. */
  function LowerChar(c: char): (r: char)
    ensures !('A' <= r <= 'Z')
    ensures IsWhiteSpace(r) == IsWhiteSpace(c)
  {
    if 'A' <= c <= 'Z' then (c as int - 'A' as int + 'a' as int) as char else c
  }

  /** `s.toLowerCase()`, character by character: only capitals change, and white space stays where it was. */
  function ToLower(s: string): (r: string)
    ensures |r| == |s|
    ensures forall i | 0 <= i < |s| :: 'A' <= s[i] <= 'Z' || r[i] == s[i]
    ensures forall i | 0 <= i < |s| :: IsWhiteSpace(r[i]) == IsWhiteSpace(s[i])
  {
    seq(|s|, i requires 0 <= i < |s| => LowerChar(s[i]))
  }

  /** No ASCII capital letter occurs in `s`. */
  predicate NoUpper(s: string) {
    forall i | 0 <= i < |s| :: !('A' <= s[i] <= 'Z')
  }

  /** Lower-casing leaves no ASCII capital. */
  lemma ToLowerNoUpper(s: string)
    ensures NoUpper(ToLower(s))
  {
  }

  /** Trimming keeps a string free of capitals. */
  lemma TrimNoUpper(s: string)
    requires NoUpper(s)
    ensures NoUpper(Trim(s))
  {
    var k := TrimInfix(s);
  }

  /** Removing one leading character keeps a string free of capitals. */
  lemma StripOneNoUpper(s: string, c: char)
    requires NoUpper(s)
    ensures NoUpper(StripOne(s, c))
  {
  }

  /** Lower-casing works piece by piece. */
  lemma ToLowerAppend(a: string, b: string)
    ensures ToLower(a + b) == ToLower(a) + ToLower(b)
  {
  }

  /** `s.startsWith(p)`. */
  predicate StartsWith(s: string, p: string) {
    |p| <= |s| && s[..|p|] == p
  }

  /** `s.endsWith(p)`. */
  predicate EndsWith(s: string, p: string) {
    |p| <= |s| && s[|s| - |p|..] == p
  }

  /** Starting or ending with a one-character text is a test of the first or last character. */
  lemma EndChars(s: string, c: char)
    ensures StartsWith(s, [c]) <==> s != [] && s[0] == c
    ensures EndsWith(s, [c]) <==> s != [] && s[|s| - 1] == c
  {
    if s != [] {
      assert s[..1] == [s[0]];
      assert s[|s| - 1..] == [s[|s| - 1]];
    }
  }

  /** `s.slice(i, i + |p|) === p`: the text `p` occurs in `s` at index `i`. */
  predicate OccursAt(s: string, i: nat, p: string) {
    i + |p| <= |s| && s[i..i + |p|] == p
  }

  /** `s.indexOf(p, from)`, with `None` for `-1`: the first occurrence of `p` at or after `from`. */
  function IndexOf(s: string, p: string, from: nat): (r: Option<nat>)
    requires p != []
    ensures r.Some? ==> from <= r.value && OccursAt(s, r.value, p)
    ensures r.Some? ==> forall j | from <= j < r.value :: !OccursAt(s, j, p)
    ensures r.None? ==> forall j: nat | from <= j :: !OccursAt(s, j, p)
    decreases |s| - from
  {
    if |s| < from + |p| then None
    else if OccursAt(s, from, p) then Some(from)
    else IndexOf(s, p, from + 1)
  }

  /** Conversely, the first occurrence of `p` at or after `from` is the one `indexOf` finds. */
  lemma IndexOfFirst(s: string, p: string, from: nat, k: nat)
    requires p != [] && from <= k && OccursAt(s, k, p)
    requires forall j | from <= j < k :: !OccursAt(s, j, p)
    ensures IndexOf(s, p, from) == Some(k)
  {
    var r := IndexOf(s, p, from);
    assert r.Some?;
    assert !(r.value < k);
    assert !(k < r.value);
  }

  /** The number of occurrences of `c` in `s`. */
  function Count(s: string, c: char): nat {
    if s == [] then 0 else (if s[0] == c then 1 else 0) + Count(s[1..], c)
  }

  /** `s.split(c)` for a one-character separator: never empty, and no piece contains `c`. */
  function Split(s: string, c: char): (r: seq<string>)
    ensures |r| >= 1
    ensures forall i | 0 <= i < |r| :: c !in r[i]
  {
    if s == [] then [""]
    else
      var rest := Split(s[1..], c);
      if s[0] == c then [""] + rest else [[s[0]] + rest[0]] + rest[1..]
  }

  /** `parts.join(sep)`. */
  function Join(parts: seq<string>, sep: string): string {
    if |parts| == 0 then ""
    else if |parts| == 1 then parts[0]
    else parts[0] + sep + Join(parts[1..], sep)
  }

  /** Splitting then joining on the same character gives back the original string. */
  lemma {:induction false} SplitJoin(s: string, c: char)
    ensures Join(Split(s, c), [c]) == s
  {
    if s != [] {
      var rest := Split(s[1..], c);
      SplitJoin(s[1..], c);
      if s[0] == c {
        assert Split(s, c) == [""] + rest;
        assert Join([""] + rest, [c]) == "" + [c] + Join(rest, [c]) by {
          assert ([""] + rest)[1..] == rest;
        }
        assert [s[0]] + s[1..] == s;
      } else {
        var parts := [[s[0]] + rest[0]] + rest[1..];
        assert Split(s, c) == parts;
        if |rest| == 1 {
          assert Join(parts, [c]) == [s[0]] + rest[0];
        } else {
          assert parts[1..] == rest[1..];
          assert Join(rest, [c]) == rest[0] + [c] + Join(rest[1..], [c]);
        }
        assert [s[0]] + s[1..] == s;
      }
    }
  }

  /** A string without the separator splits into itself alone. */
  lemma {:induction false} SplitWithout(s: string, c: char)
    requires c !in s
    ensures Split(s, c) == [s]
  {
    if s != [] {
      SplitWithout(s[1..], c);
      assert [s[0]] + s[1..] == s;
    }
  }

  /** How `split` treats the first character. */
  lemma SplitCons(x: char, t: string, c: char)
    ensures Split([x] + t, c)
         == if x == c then [""] + Split(t, c) else [[x] + Split(t, c)[0]] + Split(t, c)[1..]
  {
    assert ([x] + t)[1..] == t;
  }

  /** Concatenation is associative. */
  lemma Assoc<T>(p: seq<T>, q: seq<T>, r: seq<T>)
    ensures (p + q) + r == p + (q + r)
  {
  }

  /** A non-empty sequence is its head followed by its tail, also in front of `b`. */
  lemma Uncons<T>(a: seq<T>, b: seq<T>)
    requires a != []
    ensures a == [a[0]] + a[1..] && a + b == [a[0]] + (a[1..] + b)
  {
  }

  lemma ConsAppend<T>(y: T, p: seq<T>, q: seq<T>)
    ensures [y] + (p + q) == ([y] + p) + q
  {
  }

  lemma HeadTail<T>(p: seq<T>, q: seq<T>)
    requires |p| >= 1
    ensures (p + q)[0] == p[0] && (p + q)[1..] == p[1..] + q
  {
  }

  /** Splitting distributes over a separator placed between two strings. */
  lemma SplitAround(a: string, c: char, b: string)
    ensures Split(a + [c] + b, c) == Split(a, c) + Split(b, c)
  {
    assert a + [c] + b == a + ([c] + b);
    SplitAroundR(a, c, b);
  }

  /** Two separators around a middle text whose ends hold none split into the first end, the middle's pieces and the last end. */
  lemma SplitThree(a: string, b: string, c: string, sep: char)
    requires sep !in a && sep !in c
    ensures Split(a + [sep] + b + [sep] + c, sep) == [a] + Split(b, sep) + [c]
  {
    SplitAround(a + [sep] + b, sep, c);
    SplitAround(a, sep, b);
    SplitWithout(a, sep);
    SplitWithout(c, sep);
  }

  /** `SplitAround` with the concatenation grouped to the right, by induction on `a`. */
  lemma {:induction false} SplitAroundR(a: string, c: char, b: string)
    ensures Split(a + ([c] + b), c) == Split(a, c) + Split(b, c)
  {
    if a == [] {
      assert a + ([c] + b) == [c] + b;
      SplitCons(c, b, c);
    } else {
      SplitAroundR(a[1..], c, b);
      Uncons(a, [c] + b);
      SplitAroundStep(a[0], a[1..], c, b);
    }
  }

  /** The inductive step of `SplitAroundR`: one more character in front. */
  lemma SplitAroundStep(x: char, a: string, c: char, b: string)
    requires Split(a + ([c] + b), c) == Split(a, c) + Split(b, c)
    ensures Split([x] + (a + ([c] + b)), c) == Split([x] + a, c) + Split(b, c)
  {
    SplitCons(x, a + ([c] + b), c);
    SplitCons(x, a, c);
    var sa, sb := Split(a, c), Split(b, c);
    if x == c {
      ConsAppend("", sa, sb);
    } else {
      HeadTail(sa, sb);
      ConsAppend([x] + sa[0], sa[1..], sb);
    }
  }

  /** Joining pieces free of the separator, then splitting, gives back the pieces. */
  lemma {:induction false} JoinSplit(parts: seq<string>, c: char)
    requires |parts| >= 1
    requires forall i | 0 <= i < |parts| :: c !in parts[i]
    ensures Split(Join(parts, [c]), c) == parts
  {
    if |parts| == 1 {
      SplitWithout(parts[0], c);
    } else {
      JoinSplit(parts[1..], c);
      SplitWithout(parts[0], c);
      SplitAround(parts[0], c, Join(parts[1..], [c]));
      assert parts == [parts[0]] + parts[1..];
    }
  }

  /** `split` yields one more piece than there are separators. */
  lemma {:induction false} SplitCount(s: string, c: char)
    ensures |Split(s, c)| == Count(s, c) + 1
  {
    if s != [] {
      SplitCount(s[1..], c);
    }
  }

  /** The leading run of `c` characters removed (`replace(/^c+/, '')`). */
  function StripLeading(s: string, c: char): (r: string)
    ensures r == [] || r[0] != c
    ensures |r| <= |s| && r == s[|s| - |r|..]
  {
    if s != [] && s[0] == c then StripLeading(s[1..], c) else s
  }

  /** One more leading `c` makes no difference. */
  lemma StripLeadingCons(c: char, s: string)
    ensures StripLeading([c] + s, c) == StripLeading(s, c)
  {
    assert ([c] + s)[1..] == s;
  }

  /** The trailing run of `c` characters removed. */
  function StripTrailing(s: string, c: char): (r: string)
    ensures r == [] || r[|r| - 1] != c
    ensures |r| <= |s| && r == s[..|r|]
  {
    if s != [] && s[|s| - 1] == c then StripTrailing(s[..|s| - 1], c) else s
  }

  /** A string that does not end in `c` has nothing to strip. */
  lemma StripTrailingNone(s: string, c: char)
    requires s == [] || s[|s| - 1] != c
    ensures StripTrailing(s, c) == s
  {
  }

  /** `s.replace(/^c/, '')`: at most one leading `c` removed. */
  function StripOne(s: string, c: char): (r: string)
    ensures |s| - 1 <= |r| <= |s| && r == s[|s| - |r|..]
    ensures |r| < |s| <==> StartsWith(s, [c])
  {
    if s != [] && s[0] == c then s[1..] else s
  }

  /** `s.replace(/\\/g, '/')`. */
  function BackslashesToSlashes(s: string): (r: string)
    ensures |r| == |s| && '\\' !in r
    ensures forall i | 0 <= i < |s| :: r[i] == '/' <==> s[i] == '/' || s[i] == '\\'
  {
    seq(|s|, i requires 0 <= i < |s| => if s[i] == '\\' then '/' else s[i])
  }
}

=== FILE: markdown_it.dfy ===
/**
 * The pieces of the host markdown-it parser that the rule touches: a token's
 * ordered attribute list with `attrSet`, the `Token` record, and the inline
 * parser state with its cursor and token stream.
 */
module MarkdownIt {
  import opened Wrappers

  /** One `[name, value]` attribute pair. */
  type Attr = (string, string)

  /** The value of the first attribute called `name` (`attrGet`). */
  function GetAttr(attrs: seq<Attr>, name: string): Option<string> {
    if attrs == [] then None
    else if attrs[0].0 == name then Some(attrs[0].1)
    else GetAttr(attrs[1..], name)
  }

  /** `attrSet(name, value)`: overwrite the first pair called `name` in place, or append a new pair. */
  function AttrSet(attrs: seq<Attr>, name: string, value: string): seq<Attr> {
    if attrs == [] then [(name, value)]
    else if attrs[0].0 == name then [(name, value)] + attrs[1..]
    else [attrs[0]] + AttrSet(attrs[1..], name, value)
  }

  /** `attrSet` applied for each entry in turn; also how a property assignment or an object spread updates a JavaScript object. */
  function AttrSetAll(attrs: seq<Attr>, entries: seq<Attr>): seq<Attr>
    decreases |entries|
  {
    if entries == [] then attrs
    else AttrSetAll(AttrSet(attrs, entries[0].0, entries[0].1), entries[1..])
  }

  /** No two attributes share a name, as for the entries of a JavaScript object. */
  predicate UniqueNames(attrs: seq<Attr>) {
    forall i, j | 0 <= i < j < |attrs| :: attrs[i].0 != attrs[j].0
  }

  /** The entries of one JavaScript object: no name occurs twice. */
  type AttrList = a: seq<Attr> | UniqueNames(a) witness []

  /** After `attrSet(name, value)` the name reads `value`; every other name reads as before. */
  lemma {:induction false} GetAfterSet(attrs: seq<Attr>, name: string, value: string, other: string)
    ensures GetAttr(AttrSet(attrs, name, value), other)
         == if other == name then Some(value) else GetAttr(attrs, other)
  {
    if attrs != [] && attrs[0].0 != name {
      GetAfterSet(attrs[1..], name, value, other);
    }
  }

  /** `attrSet` on a name not yet present appends it at the end. */
  lemma {:induction false} SetAppends(attrs: seq<Attr>, name: string, value: string)
    requires GetAttr(attrs, name).None?
    ensures AttrSet(attrs, name, value) == attrs + [(name, value)]
  {
    if attrs != [] {
      SetAppends(attrs[1..], name, value);
      assert attrs == [attrs[0]] + attrs[1..];
    }
  }

  /** A name is present exactly when some pair carries it. */
  lemma {:induction false} GetAttrFinds(attrs: seq<Attr>, name: string)
    ensures GetAttr(attrs, name).Some? <==> exists i | 0 <= i < |attrs| :: attrs[i].0 == name
  {
    if attrs != [] {
      GetAttrFinds(attrs[1..], name);
      if GetAttr(attrs[1..], name).Some? {
        var i :| 0 <= i < |attrs[1..]| && attrs[1..][i].0 == name;
        assert attrs[i + 1].0 == name;
      }
      if attrs[0].0 != name && exists i | 0 <= i < |attrs| :: attrs[i].0 == name {
        var i :| 0 <= i < |attrs| && attrs[i].0 == name;
        assert attrs[1..][i - 1].0 == name;
      }
    }
  }

  /** `attrSet` keeps names unique. */
  lemma SetKeepsUnique(attrs: seq<Attr>, name: string, value: string)
    requires UniqueNames(attrs)
    ensures UniqueNames(AttrSet(attrs, name, value))
  {
    var r := AttrSet(attrs, name, value);
    GetAttrFinds(attrs, name);
    if GetAttr(attrs, name).None? {
      SetAppends(attrs, name, value);
    } else {
      var k := SetIndex(attrs, name, value);
      assert forall i | 0 <= i < |r| :: r[i].0 == attrs[i].0;
    }
  }

  /** `attrSet` on a present name replaces the value at the first pair with that name and nothing else. */
  lemma {:induction false} SetIndex(attrs: seq<Attr>, name: string, value: string) returns (k: nat)
    requires GetAttr(attrs, name).Some?
    ensures k < |attrs| && attrs[k].0 == name
    ensures AttrSet(attrs, name, value) == attrs[k := (name, value)]
  {
    if attrs[0].0 == name {
      k := 0;
    } else {
      var k' := SetIndex(attrs[1..], name, value);
      k := k' + 1;
      assert [attrs[0]] + attrs[1..][k' := (name, value)] == attrs[k := (name, value)];
    }
  }

  /** Reading a name after several `attrSet` calls with distinct names: the last word is theirs if they set it. */
  lemma {:induction false} GetAfterSetAll(attrs: seq<Attr>, entries: seq<Attr>, name: string)
    requires UniqueNames(entries)
    ensures GetAttr(AttrSetAll(attrs, entries), name)
         == if GetAttr(entries, name).Some? then GetAttr(entries, name) else GetAttr(attrs, name)
    decreases |entries|
  {
    if entries != [] {
      var next := AttrSet(attrs, entries[0].0, entries[0].1);
      assert UniqueNames(entries[1..]);
      GetAfterSetAll(next, entries[1..], name);
      GetAfterSet(attrs, entries[0].0, entries[0].1, name);
      if entries[0].0 == name {
        GetAttrFinds(entries[1..], name);
      }
    }
  }

  /** Several `attrSet` calls keep names unique. */
  lemma {:induction false} SetAllKeepsUnique(attrs: seq<Attr>, entries: seq<Attr>)
    requires UniqueNames(attrs)
    ensures UniqueNames(AttrSetAll(attrs, entries))
    decreases |entries|
  {
    if entries != [] {
      SetKeepsUnique(attrs, entries[0].0, entries[0].1);
      SetAllKeepsUnique(AttrSet(attrs, entries[0].0, entries[0].1), entries[1..]);
    }
  }

  /** Once the first attribute is named `name`, no later `attrSet` moves it. */
  lemma {:induction false} SetAllKeepsFirst(attrs: seq<Attr>, entries: seq<Attr>)
    requires attrs != []
    ensures var r := AttrSetAll(attrs, entries); r != [] && r[0].0 == attrs[0].0
    decreases |entries|
  {
    if entries != [] {
      SetAllKeepsFirst(AttrSet(attrs, entries[0].0, entries[0].1), entries[1..]);
    }
  }

  /** With unique names, the pairs before index `i` do not yet carry the name at `i`. */
  lemma PrefixLacksNext(attrs: seq<Attr>, i: nat)
    requires UniqueNames(attrs) && i < |attrs|
    ensures GetAttr(attrs[..i], attrs[i].0).None?
  {
    GetAttrFinds(attrs[..i], attrs[i].0);
  }

  /**
   * A token: `kind` is markdown-it's `type`. `content` is `None` where the
   * source stores `undefined`; a token whose children are `null` has none here.
   */
  datatype Token = Token(
    kind: string,
    tag: string,
    nesting: int,
    attrs: seq<Attr>,
    content: Option<string>,
    children: seq<Token>)

  /** `new Token(type, tag, nesting)`: no attributes, empty content, no children. */
  function NewToken(kind: string, tag: string, nesting: int): Token {
    Token(kind, tag, nesting, [], Some(""), [])
  }

  /** The inline parser state the rule works on: source text, cursor, bound and output tokens. */
  class InlineState {
    const src: string
    var pos: nat
    const posMax: nat
    var tokens: seq<Token>

    constructor (src: string, pos: nat, posMax: nat)
      ensures this.src == src && this.pos == pos && this.posMax == posMax && tokens == []
    {
      this.src := src;
      this.pos := pos;
      this.posMax := posMax;
      tokens := [];
    }

    /** `state.push`: append one token to the stream. */
    method Push(token: Token)
      modifies this`tokens
      ensures tokens == old(tokens) + [token]
    {
      tokens := tokens + [token];
    }
  }
}

=== FILE: node_path.dfy ===
/**
 * The parts of Node's POSIX `path` module whose results the plugin inspects:
 * `path.extname` and the `name` field of `path.parse`. Both look only at the
 * last path component, ignoring trailing slashes.
 */
module NodePath {
  import opened Wrappers
  import opened JsString

  /** The index of the last `c` in `s`. */
  function LastIndexOf(s: string, c: char): (r: Option<nat>)
    ensures r.Some? ==> r.value < |s| && s[r.value] == c && c !in s[r.value + 1..]
    ensures r.None? ==> c !in s
  {
    if s == [] then None
    else if s[|s| - 1] == c then Some(|s| - 1)
    else LastIndexOf(s[..|s| - 1], c)
  }

  /** The last occurrence of `c` in `a + b` is the one in `a` when `b` has none. */
  lemma {:induction false} LastIndexOfAppend(a: string, b: string, c: char)
    requires c !in b
    ensures LastIndexOf(a + b, c) == LastIndexOf(a, c)
  {
    if b != [] {
      assert (a + b)[..|a + b| - 1] == a + b[..|b| - 1];
      LastIndexOfAppend(a, b[..|b| - 1], c);
    } else {
      assert a + b == a;
    }
  }

  /** The last path component, with trailing slashes ignored. */
  function BaseName(p: string): (b: string)
    ensures '/' !in b
  {
    var q := StripTrailing(p, '/');
    match LastIndexOf(q, '/')
    case None => q
    case Some(i) => q[i + 1..]
  }

  /** A path without any slash is its own base name. */
  lemma BaseNameNoSlash(p: string)
    requires '/' !in p
    ensures BaseName(p) == p
  {
    assert StripTrailing(p, '/') == p;
  }

  /** `path.extname` of a single component: from its last dot on, unless that dot is its first character or the component is `..`. */
  function ExtOfBase(b: string): (e: string)
    ensures |e| <= |b| && e == b[|b| - |e|..]
    ensures e == [] || (e[0] == '.' && '.' !in e[1..])
  {
    if b == ".." then ""
    else match LastIndexOf(b, '.')
      case None => ""
      case Some(i) => if i == 0 then "" else b[i..]
  }

  /** `path.extname(p)`. */
  function ExtName(p: string): (e: string)
    ensures e == [] || e[0] == '.'
  {
    ExtOfBase(BaseName(p))
  }

  /** `path.parse(p).name`: the last component without its extension. */
  function ParseName(p: string): (n: string)
    ensures n + ExtName(p) == BaseName(p)
  {
    var b := BaseName(p);
    var e := ExtOfBase(b);
    SplitSuffix(b, e);
    b[..|b| - |e|]
  }

  /** A string is what precedes one of its suffixes followed by that suffix. */
  lemma SplitSuffix(b: string, e: string)
    requires |e| <= |b| && e == b[|b| - |e|..]
    ensures b[..|b| - |e|] + e == b
  {
  }

  /** Appending slash-free text to a path that does not end in a slash extends its last component. */
  lemma BaseNameAppend(stem: string, tail: string)
    requires stem != [] && stem[|stem| - 1] != '/'
    requires tail != [] && '/' !in tail
    ensures BaseName(stem + tail) == BaseName(stem) + tail
    ensures BaseName(stem) != []
  {
    var p := stem + tail;
    assert p[|p| - 1] == tail[|tail| - 1];
    StripTrailingNone(p, '/');
    StripTrailingNone(stem, '/');
    LastIndexOfAppend(stem, tail, '/');
    match LastIndexOf(stem, '/')
    case None =>
    case Some(i) =>
      assert i < |stem| - 1;
      DropAppend(stem, tail, i + 1);
  }

  /** Dropping a prefix of `a` from `a + b` drops it from `a` alone. */
  lemma DropAppend(a: string, b: string, k: nat)
    requires k <= |a|
    ensures (a + b)[k..] == a[k..] + b
  {
  }

  /** A component `b.e` with `b` non-empty and `e` free of dots has extension `.e`. */
  lemma ExtOfDotted(b: string, e: string)
    requires b != [] && e != [] && '.' !in e
    ensures ExtOfBase(b + "." + e) == "." + e
  {
    var c := b + "." + e;
    assert c == (b + ".") + e;
    LastIndexOfAppend(b + ".", e, '.');
    assert LastIndexOf(b + ".", '.') == Some(|b|);
    assert c != ".." by {
      assert c[|c| - 1] == e[|e| - 1];
    }
    assert c[|b|..] == "." + e;
  }

  /** A path `stem.e`, with `e` free of dots and slashes and `stem` not ending in a slash, has extension `.e`. */
  lemma ExtNameOfDotted(stem: string, e: string)
    requires stem != [] && stem[|stem| - 1] != '/'
    requires e != [] && '.' !in e && '/' !in e
    ensures ExtName(stem + "." + e) == "." + e
    ensures ParseName(stem + "." + e) == BaseName(stem)
  {
    assert stem + "." + e == stem + ("." + e);
    BaseNameAppend(stem, "." + e);
    assert BaseName(stem) + ("." + e) == BaseName(stem) + "." + e;
    ExtOfDotted(BaseName(stem), e);
  }

  /** A path without any dot has no extension. */
  lemma ExtNameWithoutDot(p: string)
    requires '.' !in p
    ensures ExtName(p) == ""
  {
    var q := StripTrailing(p, '/');
    assert forall i | 0 <= i < |q| :: q[i] == p[i];
    var b := BaseName(p);
    assert '.' !in b by {
      match LastIndexOf(q, '/')
      case None =>
      case Some(i) => assert forall j | 0 <= j < |b| :: b[j] == q[i + 1 + j];
    }
    assert b != "..";
  }
}

=== FILE: url_join.dfy ===
/**
 * The path handling of the `proper-url-join` package: the non-empty parts are
 * joined with `/`, empty path segments are dropped, and a leading and a
 * trailing slash are added or left off as the options request.
 */
module ProperUrlJoin {
  import opened JsString

  /** The parts that are not the empty string (`filter((part) => part)`), in order. */
  function NonEmpty(parts: seq<string>): (r: seq<string>)
    ensures |r| <= |parts|
    ensures forall i | 0 <= i < |r| :: r[i] != []
  {
    if parts == [] then []
    else (if parts[0] == [] then [] else [parts[0]]) + NonEmpty(parts[1..])
  }

  /** Filtering distributes over concatenation. */
  lemma {:induction false} NonEmptyAppend(a: seq<string>, b: seq<string>)
    ensures NonEmpty(a + b) == NonEmpty(a) + NonEmpty(b)
  {
    if a == [] {
      assert a + b == b;
    } else {
      var x := if a[0] == [] then [] else [a[0]];
      HeadTail(a, b);
      NonEmptyAppend(a[1..], b);
      Assoc(x, NonEmpty(a[1..]), NonEmpty(b));
    }
  }

  lemma {:induction false} NonEmptyKeeps(a: seq<string>)
    requires forall i | 0 <= i < |a| :: a[i] != []
    ensures NonEmpty(a) == a
  {
    if a != [] {
      NonEmptyKeeps(a[1..]);
    }
  }

  /** The path segments of `s`: the pieces between slashes that are not empty. */
  function Segments(s: string): (r: seq<string>)
    ensures forall i | 0 <= i < |r| :: r[i] != [] && '/' !in r[i]
  {
    var pieces := Split(s, '/');
    var r := NonEmpty(pieces);
    assert forall i | 0 <= i < |r| :: r[i] in pieces by {
      NonEmptyFrom(pieces);
    }
    r
  }

  lemma {:induction false} NonEmptyFrom(a: seq<string>)
    ensures forall i | 0 <= i < |NonEmpty(a)| :: NonEmpty(a)[i] in a
  {
    if a != [] {
      NonEmptyFrom(a[1..]);
    }
  }

  /** Segments, possibly a leading slash, possibly a trailing slash; a lone `/` when there are no segments but a slash is wanted. */
  function Build(segs: seq<string>, leading: bool, trailing: bool): string {
    var body := if segs == [] then "" else (if leading then "/" else "") + Join(segs, "/");
    var url := if trailing then body + "/" else body;
    if url == "" && leading then "/" else url
  }

  /** Two slashes never stand next to each other. */
  predicate NoDoubleSlash(s: string) {
    forall i | 0 <= i < |s| - 1 :: s[i] != '/' || s[i + 1] != '/'
  }

  /** A join of proper segments neither starts nor ends with a slash and never doubles one. */
  lemma {:induction false} JoinedSegments(segs: seq<string>)
    requires segs != []
    requires forall i | 0 <= i < |segs| :: segs[i] != [] && '/' !in segs[i]
    ensures var j := Join(segs, "/"); j != [] && j[0] != '/' && j[|j| - 1] != '/' && NoDoubleSlash(j)
  {
    var j := Join(segs, "/");
    if |segs| == 1 {
      assert j == segs[0];
      forall i | 0 <= i < |j| - 1 ensures j[i] != '/' { assert j[i] in segs[0]; }
    } else {
      JoinedSegments(segs[1..]);
      var rest := Join(segs[1..], "/");
      assert j == segs[0] + "/" + rest;
      forall i | 0 <= i < |j| - 1 ensures j[i] != '/' || j[i + 1] != '/' {
        if i < |segs[0]| {
          assert j[i] == segs[0][i];
          assert j[i] in segs[0];
        } else if i > |segs[0]| {
          assert j[i] == rest[i - |segs[0]| - 1];
          assert j[i + 1] == rest[i - |segs[0]|];
        } else {
          assert j[i + 1] == rest[0];
        }
      }
      assert j[0] == segs[0][0];
      assert j[|j| - 1] == rest[|rest| - 1];
    }
  }

  /** A slash in front adds an empty first piece. */
  lemma SplitSlashFirst(t: string)
    ensures Split("/" + t, '/') == [""] + Split(t, '/')
  {
    SplitCons('/', t, '/');
  }

  /** A slash at the end adds an empty last piece. */
  lemma SplitSlashLast(t: string)
    ensures Split(t + "/", '/') == Split(t, '/') + [""]
  {
    SplitAround(t, '/', "");
    assert t + ['/'] + "" == t + "/";
  }

  /** Splitting a built URL on `/` gives its segments, with an empty piece for each slash at an end. */
  lemma SplitBuild(segs: seq<string>, leading: bool, trailing: bool)
    requires segs != []
    requires forall i | 0 <= i < |segs| :: segs[i] != [] && '/' !in segs[i]
    ensures Split(Build(segs, leading, trailing), '/')
         == (if leading then [""] else []) + segs + (if trailing then [""] else [])
  {
    var j := Join(segs, "/");
    JoinSplit(segs, '/');
    var b := (if leading then "/" else "") + j;
    assert Split(b, '/') == (if leading then [""] else []) + segs by {
      if leading {
        SplitSlashFirst(j);
      } else {
        assert b == j;
      }
    }
    if trailing {
      SplitSlashLast(b);
    }
  }

  /** Empty pieces around proper segments are dropped. */
  lemma NonEmptyPadded(segs: seq<string>, front: seq<string>, back: seq<string>)
    requires forall i | 0 <= i < |segs| :: segs[i] != []
    requires front == [] || front == [""]
    requires back == [] || back == [""]
    ensures NonEmpty(front + segs + back) == segs
  {
    NonEmptyKeeps(segs);
    NonEmptyAppend(front + segs, back);
    NonEmptyAppend(front, segs);
    assert NonEmpty(front) == [] && NonEmpty(back) == [];
  }

  /** The empty URL and a lone slash have no segments. */
  lemma NoSegments()
    ensures Segments("") == [] && Segments("/") == []
  {
    assert Split("", '/') == [""];
    SplitSlashLast("");
    assert "" + "/" == "/";
  }

  /** Building from proper segments and then reading the segments back gives the same segments. */
  lemma SegmentsOfBuild(segs: seq<string>, leading: bool, trailing: bool)
    requires forall i | 0 <= i < |segs| :: segs[i] != [] && '/' !in segs[i]
    ensures Segments(Build(segs, leading, trailing)) == segs
  {
    if segs == [] {
      NoSegments();
    } else {
      SplitBuild(segs, leading, trailing);
      NonEmptyPadded(segs, if leading then [""] else [], if trailing then [""] else []);
    }
  }

  /** A slash put in front of text that does not start with one doubles no slash. */
  lemma SlashBefore(s: string)
    requires s != [] && s[0] != '/' && NoDoubleSlash(s)
    ensures var t := "/" + s; NoDoubleSlash(t) && t[0] == '/' && t[|t| - 1] == s[|s| - 1]
  {
    var t := "/" + s;
    forall i | 0 <= i < |t| - 1 ensures t[i] != '/' || t[i + 1] != '/' {
      if i == 0 {
        assert t[1] == s[0];
      } else {
        assert t[i] == s[i - 1] && t[i + 1] == s[i];
      }
    }
  }

  /** A slash put after text that does not end with one doubles no slash. */
  lemma SlashAfter(s: string)
    requires s != [] && s[|s| - 1] != '/' && NoDoubleSlash(s)
    ensures var t := s + "/"; NoDoubleSlash(t) && t[0] == s[0] && t[|t| - 1] == '/'
  {
    var t := s + "/";
    forall i | 0 <= i < |t| - 1 ensures t[i] != '/' || t[i + 1] != '/' {
      assert t[i] == s[i];
    }
  }

  /** What `Build` promises about slashes when its segments are proper. */
  lemma BuildSlashes(segs: seq<string>, leading: bool, trailing: bool)
    requires forall i | 0 <= i < |segs| :: segs[i] != [] && '/' !in segs[i]
    ensures var r := Build(segs, leading, trailing);
      && (leading ==> StartsWith(r, "/"))
      && (trailing ==> EndsWith(r, "/"))
      && (!leading && r != "/" ==> !StartsWith(r, "/"))
      && (!trailing && r != "/" ==> !EndsWith(r, "/"))
      && NoDoubleSlash(r)
  {
    var r := Build(segs, leading, trailing);
    EndChars(r, '/');
    if segs != [] {
      JoinedSegments(segs);
      var j := Join(segs, "/");
      var b := (if leading then "/" else "") + j;
      if leading {
        SlashBefore(j);
      } else {
        assert b == j;
      }
      if trailing {
        SlashAfter(b);
      }
    }
  }

  /**
   * `urlJoin(...parts, { leadingSlash: leading, trailingSlash: trailing })`:
   * the slashes asked for are there, the ones not asked for are not (a lone
   * `/` aside), and no slash is doubled.
   */
  function UrlJoin(parts: seq<string>, leading: bool, trailing: bool): (r: string)
    ensures leading ==> StartsWith(r, "/")
    ensures trailing ==> EndsWith(r, "/")
    ensures !leading && r != "/" ==> !StartsWith(r, "/")
    ensures !trailing && r != "/" ==> !EndsWith(r, "/")
    ensures NoDoubleSlash(r)
  {
    var segs := Segments(Join(NonEmpty(parts), "/"));
    BuildSlashes(segs, leading, trailing);
    Build(segs, leading, trailing)
  }

  /** `urlJoin(u, '', opts)`: the segments of `u` rebuilt with the slashes asked for. */
  lemma UrlJoinSingle(u: string, leading: bool, trailing: bool)
    ensures UrlJoin([u, ""], leading, trailing) == Build(Segments(u), leading, trailing)
  {
    if u == [] {
      assert NonEmpty([u, ""]) == [];
    } else {
      assert NonEmpty([u, ""]) == [u];
    }
  }

  /** Joining an already-joined result (and an empty part) with the same options changes nothing. */
  lemma UrlJoinStable(segs: seq<string>, leading: bool, trailing: bool)
    requires forall i | 0 <= i < |segs| :: segs[i] != [] && '/' !in segs[i]
    ensures var u := Build(segs, leading, trailing); UrlJoin([u, ""], leading, trailing) == u
  {
    var u := Build(segs, leading, trailing);
    SegmentsOfBuild(segs, leading, trailing);
    if u == [] {
      assert NonEmpty([u, ""]) == [];
    } else {
      assert NonEmpty([u, ""]) == [u];
    }
  }
  /** The segments of each part in turn. */
  function AllSegments(parts: seq<string>): seq<string> {
    if parts == [] then [] else Segments(parts[0]) + AllSegments(parts[1..])
  }

  /** A slash between two strings separates their segments. */
  lemma SegmentsAround(a: string, b: string)
    ensures Segments(a + "/" + b) == Segments(a) + Segments(b)
  {
    SplitAround(a, '/', b);
    assert a + ['/'] + b == a + "/" + b;
    NonEmptyAppend(Split(a, '/'), Split(b, '/'));
  }

  /** The segments of a `/`-join are the segments of its parts, in order. */
  lemma {:induction false} SegmentsOfJoin(parts: seq<string>)
    ensures Segments(Join(parts, "/")) == AllSegments(parts)
  {
    if parts == [] {
      NoSegments();
    } else if |parts| == 1 {
      assert parts[1..] == [];
      assert Segments(parts[0]) + [] == Segments(parts[0]);
    } else {
      SegmentsOfJoin(parts[1..]);
      SegmentsAround(parts[0], Join(parts[1..], "/"));
    }
  }

  /** Leaving out the empty parts leaves out no segment. */
  lemma {:induction false} AllSegmentsNonEmpty(parts: seq<string>)
    ensures AllSegments(NonEmpty(parts)) == AllSegments(parts)
  {
    if parts != [] {
      var rest := NonEmpty(parts[1..]);
      AllSegmentsNonEmpty(parts[1..]);
      if parts[0] == [] {
        NoSegments();
        assert NonEmpty(parts) == [] + rest;
        assert [] + rest == rest;
      } else {
        assert NonEmpty(parts) == [parts[0]] + rest;
        assert ([parts[0]] + rest)[1..] == rest;
      }
    }
  }

  /**
   * `urlJoin` keeps every path segment of every part, in order, and adds no
   * other: only the slashes between and around them change.
   */
  lemma UrlJoinSegments(parts: seq<string>, leading: bool, trailing: bool)
    ensures Segments(UrlJoin(parts, leading, trailing)) == AllSegments(parts)
  {
    var segs := Segments(Join(NonEmpty(parts), "/"));
    SegmentsOfBuild(segs, leading, trailing);
    SegmentsOfJoin(NonEmpty(parts));
    AllSegmentsNonEmpty(parts);
  }

  /** A slash in front of a URL adds no segment. */
  lemma SegmentsSlashFirst(t: string)
    ensures Segments("/" + t) == Segments(t)
  {
    SplitSlashFirst(t);
    NonEmptyAppend([""], Split(t, '/'));
    assert NonEmpty([""]) == [];
  }

  /** A slash after a URL adds no segment. */
  lemma SegmentsSlashLast(t: string)
    ensures Segments(t + "/") == Segments(t)
  {
    SplitSlashLast(t);
    NonEmptyAppend(Split(t, '/'), [""]);
    assert NonEmpty([""]) == [];
  }

  /** `urlJoin(u, '', ...)` keeps exactly the segments of `u`. */
  lemma UrlJoinPairSegments(u: string, leading: bool, trailing: bool)
    ensures Segments(UrlJoin([u, ""], leading, trailing)) == Segments(u)
  {
    UrlJoinSegments([u, ""], leading, trailing);
    NoSegments();
    assert [u, ""][1..] == [""];
    assert [""][1..] == [];
    assert AllSegments([""]) == [];
  }

  /** `AllSegments` of three parts. */
  lemma AllSegmentsOfThree(a: string, b: string, c: string)
    ensures AllSegments([a, b, c]) == Segments(a) + Segments(b) + Segments(c)
  {
    assert [a, b, c][1..] == [b, c];
    assert [b, c][1..] == [c];
    assert [c][1..] == [];
    assert AllSegments([c]) == Segments(c) + [];
    assert AllSegments([b, c]) == Segments(b) + AllSegments([c]);
    assert AllSegments([a, b, c]) == Segments(a) + AllSegments([b, c]);
  }
}

=== FILE: utils.dfy ===
/**
 * The helpers of utils.js: base-URL and extension-list normalisation, the
 * dimension test, alt-text policy, embed classification, field resolution,
 * and the two token emitters for image embeds and wikilinks.
 */
module Utils {
  import opened Wrappers
  import opened JsString
  import opened JsNumber
  import opened NodePath
  import opened ProperUrlJoin
  import opened MarkdownIt
  import opened Config

  // ---------------------------------------------------------------------
  // Option normalisation
  // ---------------------------------------------------------------------

  /** `normalizeAbsoluteURL` before its final join: the normalised URL, given a leading slash if it lacked one. */
  function AbsoluteCandidate(url: string, svc: Services): (r: string)
    ensures StartsWith(r, "/")
    ensures EndsWith(r, svc.normalize(url)) && |r| <= |svc.normalize(url)| + 1
    ensures Segments(r) == Segments(svc.normalize(url))
  {
    var n := svc.normalize(url);
    if StartsWith(n, "/") then n
    else
      SegmentsSlashFirst(n);
      "/" + n
  }

  /**
   * `normalizeAbsoluteURL`: the path segments of the normalised URL, with
   * always a leading and a trailing slash and never a doubled one.
   */
  function NormalizeAbsoluteURL(url: string, svc: Services): (r: string)
    ensures StartsWith(r, "/") && EndsWith(r, "/") && NoDoubleSlash(r)
    ensures Segments(r) == Segments(svc.normalize(url))
  {
    var c := AbsoluteCandidate(url, svc);
    UrlJoinPairSegments(c, true, true);
    UrlJoin([c, ""], true, true)
  }

  /** Normalising an absolute base URL twice gives the once-normalised URL, as long as `path.normalize` leaves that result alone. */
  lemma AbsoluteIdempotent(url: string, svc: Services)
    requires svc.normalize(NormalizeAbsoluteURL(url, svc)) == NormalizeAbsoluteURL(url, svc)
    ensures NormalizeAbsoluteURL(NormalizeAbsoluteURL(url, svc), svc) == NormalizeAbsoluteURL(url, svc)
  {
    var segs := Segments(Join(NonEmpty([AbsoluteCandidate(url, svc), ""]), "/"));
    UrlJoinStable(segs, true, true);
  }

  /** `normalizeRelativeURL` before `path.normalize`: leading slashes dropped, then `./` put in front unless already there. */
  function RelativeCandidate(url: string): (r: string)
    ensures StartsWith(r, "./")
    ensures EndsWith(r, StripLeading(url, '/')) && |r| <= |StripLeading(url, '/')| + 2
  {
    var a := StripLeading(url, '/');
    if StartsWith(a, "./") then a else "./" + a
  }

  /**
   * `normalizeRelativeURL`: the path segments of the normalised candidate,
   * with always a trailing slash, never a leading one (unless the result is
   * a lone `/`), never a doubled one.
   */
  function NormalizeRelativeURL(url: string, svc: Services): (r: string)
    ensures EndsWith(r, "/") && NoDoubleSlash(r)
    ensures r == "/" || !StartsWith(r, "/")
    ensures Segments(r) == Segments(svc.normalize(RelativeCandidate(url)))
  {
    RelativeJoin(svc.normalize(RelativeCandidate(url)))
  }

  /** The tail of `normalizeRelativeURL`: a bare `.` becomes `./`, then the trailing slash is forced. The segments stay. */
  function RelativeJoin(c: string): (r: string)
    ensures EndsWith(r, "/") && NoDoubleSlash(r)
    ensures r == "/" || !StartsWith(r, "/")
    ensures Segments(r) == Segments(c)
  {
    var d := if c == "." then "./" else c;
    DotSlashSegments();
    UrlJoinPairSegments(d, false, true);
    UrlJoin([d, ""], false, true)
  }

  /** `./` and `.` have the same segments. */
  lemma DotSlashSegments()
    ensures Segments("./") == Segments(".")
  {
    assert "./" == "." + "/";
    SegmentsSlashLast(".");
  }

  /** Applying the tail of `normalizeRelativeURL` to its own result changes nothing. */
  lemma RelativeJoinStable(c: string)
    ensures RelativeJoin(RelativeJoin(c)) == RelativeJoin(c)
  {
    var d := if c == "." then "./" else c;
    UrlJoinSingle(d, false, true);
    UrlJoinSingle(RelativeJoin(c), false, true);
    SegmentsOfBuild(Segments(d), false, true);
  }

  /** Leading slashes are removed before anything else looks at the URL. */
  lemma RelativeIgnoresLeadingSlash(url: string, svc: Services)
    ensures NormalizeRelativeURL("/" + url, svc) == NormalizeRelativeURL(url, svc)
  {
    assert RelativeCandidate("/" + url) == RelativeCandidate(url) by {
      StripLeadingCons('/', url);
    }
  }

  /** A URL that normalises to `.` becomes `./`. */
  lemma RelativeDot(url: string, svc: Services)
    requires svc.normalize(RelativeCandidate(url)) == "."
    ensures NormalizeRelativeURL(url, svc) == "./"
  {
    assert NonEmpty(["./", ""]) == ["./"];
    assert "./" == "." + ['/'] + "";
    SplitAround(".", '/', "");
    SplitWithout(".", '/');
    assert NonEmpty([".", ""]) == ["."];
  }

  /** Normalising a relative base URL twice gives the once-normalised URL, as long as `path.normalize` leaves that result (with `./` in front) alone. */
  lemma RelativeIdempotent(url: string, svc: Services)
    requires svc.normalize(RelativeCandidate(NormalizeRelativeURL(url, svc))) == NormalizeRelativeURL(url, svc)
    ensures NormalizeRelativeURL(NormalizeRelativeURL(url, svc), svc) == NormalizeRelativeURL(url, svc)
  {
    RelativeJoinStable(svc.normalize(RelativeCandidate(url)));
  }

  /** One `imageFileExt` entry: lower-cased, trimmed, one leading dot removed. No ASCII capital survives. */
  function NormalizeExt(ext: string): (r: string)
    ensures NoUpper(r)
  {
    var t := Trim(ToLower(ext));
    ToLowerNoUpper(ext);
    TrimNoUpper(ToLower(ext));
    StripOneNoUpper(t, '.');
    StripOne(t, '.')
  }

  /** An entry that is already lower-case, trimmed and without a leading dot is kept as it is. */
  lemma NormalizeExtKeeps(ext: string)
    requires NoUpper(ext)
    requires Trim(ext) == ext && !StartsWith(ext, ".")
    ensures NormalizeExt(ext) == ext
  {
    assert ToLower(ext) == ext;
  }

  /** `imageFileExt.map(...)`: same length, same order, each entry normalised. */
  function NormalizeExts(exts: seq<string>): (r: seq<string>)
    ensures |r| == |exts|
    ensures forall i | 0 <= i < |exts| :: r[i] == NormalizeExt(exts[i])
  {
    if exts == [] then [] else [NormalizeExt(exts[0])] + NormalizeExts(exts[1..])
  }

  /** The page-link profile after `normalizeOptions`: both base URLs normalised, every other option as it was. */
  function NormalizedPageLink(page: PageLink, svc: Services): (r: PageLink)
    ensures StartsWith(r.absoluteBaseURL, "/") && EndsWith(r.absoluteBaseURL, "/")
    ensures EndsWith(r.relativeBaseURL, "/") && (r.relativeBaseURL == "/" || !StartsWith(r.relativeBaseURL, "/"))
    ensures Segments(r.absoluteBaseURL) == Segments(svc.normalize(page.absoluteBaseURL))
    ensures Segments(r.relativeBaseURL) == Segments(svc.normalize(RelativeCandidate(page.relativeBaseURL)))
    ensures r.(absoluteBaseURL := page.absoluteBaseURL, relativeBaseURL := page.relativeBaseURL) == page
  {
    page.(absoluteBaseURL := NormalizeAbsoluteURL(page.absoluteBaseURL, svc),
          relativeBaseURL := NormalizeRelativeURL(page.relativeBaseURL, svc))
  }

  /** The image profile after `normalizeOptions`: both base URLs and every extension normalised, every other option as it was. */
  function NormalizedImageEmbed(img: ImageEmbed, svc: Services): (r: ImageEmbed)
    ensures StartsWith(r.absoluteBaseURL, "/") && EndsWith(r.absoluteBaseURL, "/")
    ensures EndsWith(r.relativeBaseURL, "/") && (r.relativeBaseURL == "/" || !StartsWith(r.relativeBaseURL, "/"))
    ensures Segments(r.absoluteBaseURL) == Segments(svc.normalize(img.absoluteBaseURL))
    ensures Segments(r.relativeBaseURL) == Segments(svc.normalize(RelativeCandidate(img.relativeBaseURL)))
    ensures |r.imageFileExt| == |img.imageFileExt|
    ensures forall i | 0 <= i < |r.imageFileExt| :: NoUpper(r.imageFileExt[i])
    ensures r.(absoluteBaseURL := img.absoluteBaseURL, relativeBaseURL := img.relativeBaseURL,
               imageFileExt := img.imageFileExt) == img
  {
    img.(absoluteBaseURL := NormalizeAbsoluteURL(img.absoluteBaseURL, svc),
         relativeBaseURL := NormalizeRelativeURL(img.relativeBaseURL, svc),
         imageFileExt := NormalizeExts(img.imageFileExt))
  }

  /** `normalizeOptions`: rewrites the four base URLs and the extension list in place and touches nothing else. */
  method NormalizeOptions(options: Options, svc: Services)
    modifies options
    ensures options.pageLink == NormalizedPageLink(old(options.pageLink), svc)
    ensures options.imageEmbed == NormalizedImageEmbed(old(options.imageEmbed), svc)
  {
    var page, img := options.pageLink, options.imageEmbed;
    options.pageLink := page.(
      absoluteBaseURL := NormalizeAbsoluteURL(page.absoluteBaseURL, svc),
      relativeBaseURL := NormalizeRelativeURL(page.relativeBaseURL, svc));
    options.imageEmbed := img.(
      absoluteBaseURL := NormalizeAbsoluteURL(img.absoluteBaseURL, svc),
      relativeBaseURL := NormalizeRelativeURL(img.relativeBaseURL, svc),
      imageFileExt := NormalizeExts(img.imageFileExt));
  }

  // ---------------------------------------------------------------------
  // Dimensions
  // ---------------------------------------------------------------------

  /** `isDimension`: the lower-cased text splits on `x` into exactly two pieces, both numbers. */
  predicate IsDimension(s: string) {
    var dim := Split(ToLower(s), 'x');
    |dim| == 2 && IsNumber(dim[0]) && IsNumber(dim[1])
  }

  /** Without exactly one `x` or `X` there is no dimension. */
  lemma NotDimensionUnlessOneX(s: string)
    requires Count(ToLower(s), 'x') != 1
    ensures !IsDimension(s)
  {
    SplitCount(ToLower(s), 'x');
  }

  /** `WxH` with one `x` or `X` and no other is a dimension exactly when both sides, lower-cased, are numbers. */
  lemma DimensionOfSides(w: string, x: char, h: string)
    requires x == 'x' || x == 'X'
    requires 'x' !in w && 'X' !in w && 'x' !in h && 'X' !in h
    ensures IsDimension(w + [x] + h) <==> IsNumber(ToLower(w)) && IsNumber(ToLower(h))
  {
    var lw, lh := ToLower(w), ToLower(h);
    LowerAround(w, x, h);
    LowerHasNoX(w);
    LowerHasNoX(h);
    SplitAround(lw, 'x', lh);
    SplitWithout(lw, 'x');
    SplitWithout(lh, 'x');
  }

  /** Lower-casing `WxH` lower-cases both sides around a lower-case `x`. */
  lemma LowerAround(w: string, x: char, h: string)
    requires x == 'x' || x == 'X'
    ensures ToLower(w + [x] + h) == ToLower(w) + ['x'] + ToLower(h)
  {
    ToLowerAppend(w + [x], h);
    ToLowerAppend(w, [x]);
    assert ToLower([x]) == ['x'];
  }

  /** Text with neither `x` nor `X` has no `x` once lower-cased. */
  lemma LowerHasNoX(s: string)
    requires 'x' !in s && 'X' !in s
    ensures 'x' !in ToLower(s)
  {
    var l := ToLower(s);
    forall i | 0 <= i < |l| ensures l[i] != 'x' { assert s[i] in s; }
  }

  /** A dimension is never empty, so `if (dimensions)` is the same test as `isDimension`. */
  lemma DimensionNotEmpty(s: string)
    requires IsDimension(s)
    ensures s != []
  {
  }

  /** Digits hold neither `x` nor `X`. */
  lemma DigitsHaveNoX(s: string)
    requires AllDigits(s)
    ensures 'x' !in s && 'X' !in s
  {
    forall i | 0 <= i < |s| ensures s[i] != 'x' && s[i] != 'X' { assert IsDigit(s[i]); }
  }

  /** Digits, `x` or `X`, then digits or nothing: a dimension, since `Number("") === 0` lets an empty height through. */
  lemma DigitsDimension(w: string, x: char, h: string)
    requires x == 'x' || x == 'X'
    requires w != [] && AllDigits(w) && AllDigits(h)
    ensures IsDimension(w + [x] + h)
  {
    DigitsHaveNoX(w);
    DigitsHaveNoX(h);
    assert ToLower(w) == w;
    assert ToLower(h) == h;
    DigitsAreNumber(w);
    if h == [] { EmptyIsNumber(); } else { DigitsAreNumber(h); }
    DimensionOfSides(w, x, h);
  }

  /** The inline sizing style: `dimensions.split('x')` destructured into width and height (`undefined` when missing). */
  function DisplayStyle(dims: string): string {
    var pieces := Split(dims, 'x');
    var width := pieces[0];
    var height := if |pieces| > 1 then pieces[1] else "undefined";
    "width: " + width + "px; height: " + height + "px;"
  }

  /** For `WxH` with a lower-case `x` the style carries `W` and `H`. */
  lemma DisplayStyleOfSides(w: string, h: string)
    requires 'x' !in w && 'x' !in h
    ensures DisplayStyle(w + "x" + h) == "width: " + w + "px; height: " + h + "px;"
  {
    SplitAround(w, 'x', h);
    SplitWithout(w, 'x');
    SplitWithout(h, 'x');
  }

  /**
   * An upper-case `X` passes `isDimension` but is not split by the style, so
   * the whole text becomes the width and the height reads `undefined`.
   */
  lemma DisplayStyleUpperX(w: string, h: string)
    requires AllDigits(w) && AllDigits(h)
    ensures DisplayStyle(w + "X" + h) == "width: " + (w + "X" + h) + "px; height: undefinedpx;"
  {
    DigitsHaveNoX(w);
    DigitsHaveNoX(h);
    SplitWithout(w + "X" + h, 'x');
  }

  // ---------------------------------------------------------------------
  // Alt text
  // ---------------------------------------------------------------------

  /**
   * `determineAltText`: `None` (no alt attribute) happens exactly when the raw
   * alt text is missing or empty and the policy is `false`.
   */
  function DetermineAltText(rawAltText: Option<string>, imageTarget: string,
                            defaultAltText: AltPolicy, postProcess: string -> string): (r: Option<string>)
    ensures r.None? <==> (rawAltText.None? || rawAltText.value == "") && defaultAltText == AltFlag(false)
  {
    if rawAltText.Some? && rawAltText.value != "" then Some(postProcess(rawAltText.value))
    else match defaultAltText
      case AltFlag(enabled) => if enabled then Some(postProcess(ParseName(imageTarget))) else None
      case AltString(text) => if text == "" then Some("") else Some(postProcess(text))
      case AltOther => Some(postProcess(ParseName(imageTarget)))
  }

  /** The fixed priority of `determineAltText`, case by case. */
  lemma AltTextPriority(raw: string, imageTarget: string, policy: AltPolicy, postProcess: string -> string)
    ensures raw != "" ==> DetermineAltText(Some(raw), imageTarget, policy, postProcess) == Some(postProcess(raw))
    ensures DetermineAltText(None, imageTarget, policy, postProcess)
         == DetermineAltText(Some(""), imageTarget, policy, postProcess)
    ensures DetermineAltText(Some(""), imageTarget, AltFlag(false), postProcess) == None
    ensures DetermineAltText(Some(""), imageTarget, AltFlag(true), postProcess) == Some(postProcess(ParseName(imageTarget)))
    ensures DetermineAltText(Some(""), imageTarget, AltString(""), postProcess) == Some("")
    ensures raw != "" ==> DetermineAltText(Some(""), imageTarget, AltString(raw), postProcess) == Some(postProcess(raw))
    ensures DetermineAltText(Some(""), imageTarget, AltOther, postProcess)
         == DetermineAltText(Some(""), imageTarget, AltFlag(true), postProcess)
  {
  }

  /**
   * With the file-name policy and no alt text, `![[dir/photo.png]]` gets the
   * file name without directory and extension (`photo`), passed through the hook.
   */
  lemma AltTextFromFileName(stem: string, ext: string, postProcess: string -> string)
    requires stem != [] && stem[|stem| - 1] != '/'
    requires ext != [] && '.' !in ext && '/' !in ext
    ensures DetermineAltText(Some(""), stem + "." + ext, AltFlag(true), postProcess)
         == Some(postProcess(BaseName(stem)))
  {
    ExtNameOfDotted(stem, ext);
  }

  // ---------------------------------------------------------------------
  // Embed classification
  // ---------------------------------------------------------------------

  datatype EmbedType = Image | Link

  /** `str.slice(1)`. */
  function SliceFrom1(s: string): string {
    if |s| >= 1 then s[1..] else ""
  }

  /** `checkEmbedType`: `Image` when the lower-cased extension without its dot is in the allow-list. */
  function CheckEmbedType(rawTarget: string, imageFileExt: seq<string>): EmbedType {
    var extension := ToLower(SliceFrom1(ExtName(rawTarget)));
    if extension in imageFileExt then Image else Link
  }

  /** `name.ext` is an image exactly when the lower-cased `ext` is listed. */
  lemma ClassifyByExtension(stem: string, ext: string, imageFileExt: seq<string>)
    requires stem != [] && stem[|stem| - 1] != '/'
    requires ext != [] && '.' !in ext && '/' !in ext
    ensures CheckEmbedType(stem + "." + ext, imageFileExt) == Image <==> ToLower(ext) in imageFileExt
  {
    ExtNameOfDotted(stem, ext);
  }

  /** A target without any dot has no extension, so it is an image exactly when the empty string is listed. */
  lemma ClassifyWithoutDot(rawTarget: string, imageFileExt: seq<string>)
    requires '.' !in rawTarget
    ensures CheckEmbedType(rawTarget, imageFileExt) == Image <==> "" in imageFileExt
  {
    ExtNameWithoutDot(rawTarget);
    assert ToLower("") == "";
  }

  /**
   * An option entry `.` normalises to the empty string, and that entry makes
   * every embed whose target has no dot (`![[README]]`) an image.
   */
  lemma DotEntryListsNoExtension(rawTarget: string)
    requires '.' !in rawTarget
    ensures NormalizeExt(".") == ""
    ensures CheckEmbedType(rawTarget, NormalizeExts(["."])) == Image
  {
    DotEntryIsEmpty();
    assert NormalizeExts(["."]) == [""];
    ClassifyWithoutDot(rawTarget, [""]);
  }

  /** The option entry `.` normalises to the empty string. */
  lemma DotEntryIsEmpty()
    ensures NormalizeExt(".") == ""
  {
    assert ToLower(".") == ".";
    TrimUntouched(".");
  }

  /**
   * An option entry written with white space around it, a dot and in any
   * case (` .PNG `) loses the white space and one dot and is lower-cased (`png`).
   */
  lemma NormalizeDottedEntry(w1: string, entry: string, w2: string)
    requires Blank(w1) && Blank(w2)
    requires entry != [] && !IsWhiteSpace(entry[|entry| - 1])
    ensures NormalizeExt(w1 + "." + entry + w2) == ToLower(entry)
  {
    var le, lw1, lw2 := ToLower(entry), ToLower(w1), ToLower(w2);
    ToLowerAppend(w1 + "." + entry, w2);
    ToLowerAppend(w1 + ".", entry);
    ToLowerAppend(w1, ".");
    assert ToLower(".") == ".";
    assert Blank(lw1) && Blank(lw2);
    var core := "." + le;
    assert lw1 + "." + le + lw2 == lw1 + core + lw2;
    assert core[|core| - 1] == LowerChar(entry[|entry| - 1]);
    TrimAround(lw1, core, lw2);
    assert core[1..] == le;
  }

  /** An entry without a leading dot, padded or in any case (` PNG `), normalises to its lower-cased text. */
  lemma NormalizeUndottedEntry(w1: string, entry: string, w2: string)
    requires Blank(w1) && Blank(w2)
    requires entry != [] && entry[0] != '.'
    requires !IsWhiteSpace(entry[0]) && !IsWhiteSpace(entry[|entry| - 1])
    ensures NormalizeExt(w1 + entry + w2) == ToLower(entry)
  {
    var le, lw1, lw2 := ToLower(entry), ToLower(w1), ToLower(w2);
    ToLowerAppend(w1 + entry, w2);
    ToLowerAppend(w1, entry);
    assert Blank(lw1) && Blank(lw2);
    assert le[0] == LowerChar(entry[0]) && le[|le| - 1] == LowerChar(entry[|entry| - 1]);
    TrimAround(lw1, le, lw2);
    EndChars(le, '.');
  }

  /** No white space on either side of a dotted entry. */
  lemma Unpadded(entry: string)
    ensures "" + "." + entry + "" == "." + entry
  {
  }

  /** Two texts equal up to case end in white space together. */
  lemma SameLowerEnd(entry: string, ext: string)
    requires ext != [] && !IsWhiteSpace(ext[|ext| - 1])
    requires ToLower(entry) == ToLower(ext)
    ensures entry != [] && !IsWhiteSpace(entry[|entry| - 1])
  {
    assert |entry| == |ext|;
    assert LowerChar(entry[|entry| - 1]) == ToLower(entry)[|entry| - 1];
  }

  /**
   * An option entry written with a dot and in any case (`.PNG`) matches a
   * target whose extension differs from it only in case (`photo.Png`).
   */
  lemma ClassifyAfterNormalize(stem: string, ext: string, entry: string)
    requires stem != [] && stem[|stem| - 1] != '/'
    requires ext != [] && '.' !in ext && '/' !in ext && !IsWhiteSpace(ext[|ext| - 1])
    requires ToLower(entry) == ToLower(ext)
    ensures CheckEmbedType(stem + "." + ext, NormalizeExts(["." + entry])) == Image
  {
    SameLowerEnd(entry, ext);
    NormalizeDottedEntry("", entry, "");
    Unpadded(entry);
    assert NormalizeExts(["." + entry]) == [ToLower(ext)];
    ClassifyByExtension(stem, ext, [ToLower(ext)]);
  }

  // ---------------------------------------------------------------------
  // Image embeds
  // ---------------------------------------------------------------------

  datatype Fields = Fields(altText: string, dimensions: string)

  /**
   * The alt text and dimensions of an embed's pipe-separated parts. There are
   * dimensions exactly when there is more than one part and the last is a
   * dimension, and then they are that last part.
   */
  function ResolveFields(innerParts: seq<string>): (f: Fields)
    ensures |innerParts| <= 1 ==> f == Fields("", "")
    ensures f.dimensions != "" <==> |innerParts| > 1 && IsDimension(innerParts[|innerParts| - 1])
    ensures f.dimensions != "" ==> f.dimensions == innerParts[|innerParts| - 1]
  {
    if |innerParts| > 1 then
      var potentialDimensions := innerParts[|innerParts| - 1];
      if IsDimension(potentialDimensions) then
        DimensionNotEmpty(potentialDimensions);
        Fields(if |innerParts| >= 2 then Trim(Join(innerParts[1..|innerParts| - 1], "|")) else "",
               potentialDimensions)
      else
        Fields(Trim(Join(innerParts[1..], "|")), "")
    else
      Fields("", "")
  }

  /** `target|text` with no trailing dimension: the alt text is all of `text`, trimmed, pipes included. */
  lemma AltTextAfterTarget(target: string, text: string)
    requires '|' !in target
    requires !IsDimension(Split(text, '|')[|Split(text, '|')| - 1])
    ensures ResolveFields(Split(target + "|" + text, '|')) == Fields(Trim(text), "")
  {
    SplitAround(target, '|', text);
    SplitWithout(target, '|');
    var parts := Split(target + "|" + text, '|');
    assert parts == [target] + Split(text, '|');
    assert parts[1..] == Split(text, '|');
    SplitJoin(text, '|');
  }

  /** `target|text|WxH` with a dimension last: the dimensions are `WxH` and the alt text is all of `text`, trimmed. */
  lemma AltTextBeforeDimensions(target: string, text: string, dims: string)
    requires '|' !in target && '|' !in dims
    requires IsDimension(dims)
    ensures ResolveFields(Split(target + "|" + text + "|" + dims, '|')) == Fields(Trim(text), dims)
  {
    SplitThree(target, text, dims, '|');
    var mid := Split(text, '|');
    var parts := [target] + mid + [dims];
    assert parts[|parts| - 1] == dims;
    assert parts[1..|parts| - 1] == mid;
    SplitJoin(text, '|');
  }

  /** `target|WxH`: dimensions only, and an empty alt text. */
  lemma DimensionsOnly(target: string, dims: string)
    requires '|' !in target && '|' !in dims
    requires IsDimension(dims)
    ensures ResolveFields(Split(target + "|" + dims, '|')) == Fields("", dims)
  {
    SplitAround(target, '|', dims);
    SplitWithout(target, '|');
    SplitWithout(dims, '|');
    var parts := Split(target + "|" + dims, '|');
    assert parts == [target, dims];
    assert Trim("") == "";
  }

  /** The URL of an image before escaping: a leading slash when absolute URLs are forced, no trailing slash (a lone `/` aside). */
  function ImageUrl(rawTarget: string, img: ImageEmbed, svc: Services): (r: string)
    ensures img.forceAllImageUrlsAbsolute ==> StartsWith(r, "/")
    ensures !img.forceAllImageUrlsAbsolute ==> r == "/" || !StartsWith(r, "/")
    ensures r == "/" || !EndsWith(r, "/")
  {
    var imageTarget := match img.postProcessImageTarget
      case Some(hook) => hook(rawTarget)
      case None => rawTarget;
    var normalized := svc.normalize(BackslashesToSlashes(imageTarget));
    var baseUrl := if img.forceAllImageUrlsAbsolute then img.absoluteBaseURL else img.relativeBaseURL;
    UrlJoin([baseUrl, normalized, img.uriSuffix], img.forceAllImageUrlsAbsolute, false)
  }

  /**
   * The image URL's path segments are those of the base URL the option
   * selects, then those of the hooked and normalised target, then those of
   * the suffix: only the slashes between them change.
   */
  lemma ImageUrlSegments(rawTarget: string, img: ImageEmbed, svc: Services)
    ensures var imageTarget := if img.postProcessImageTarget.Some?
                               then img.postProcessImageTarget.value(rawTarget) else rawTarget;
      Segments(ImageUrl(rawTarget, img, svc))
      == Segments(if img.forceAllImageUrlsAbsolute then img.absoluteBaseURL else img.relativeBaseURL)
       + Segments(svc.normalize(BackslashesToSlashes(imageTarget)))
       + Segments(img.uriSuffix)
  {
    var imageTarget := if img.postProcessImageTarget.Some?
                       then img.postProcessImageTarget.value(rawTarget) else rawTarget;
    var baseUrl := if img.forceAllImageUrlsAbsolute then img.absoluteBaseURL else img.relativeBaseURL;
    var normalized := svc.normalize(BackslashesToSlashes(imageTarget));
    UrlJoinSegments([baseUrl, normalized, img.uriSuffix], img.forceAllImageUrlsAbsolute, false);
    AllSegmentsOfThree(baseUrl, normalized, img.uriSuffix);
  }

  /** The alt text that reaches the token: the policy's answer trimmed and escaped, or `None` for no alt attribute. */
  function FinalAltText(altText: string, rawTarget: string, img: ImageEmbed, svc: Services): (r: Option<string>)
    ensures r.None? <==> altText == "" && img.defaultAltText == AltFlag(false)
  {
    match DetermineAltText(Some(altText), rawTarget, img.defaultAltText, img.postProcessAltText)
    case None => None
    case Some(computed) => Some(svc.escapeHtml(Trim(computed)))
  }

  /** The extra attributes: the hook's answer, the object itself, or none. */
  function ExtraAttrs(htmlAttrs: HtmlAttributes, context: AttrContext): AttrList {
    match htmlAttrs
    case AttrHook(hook) => hook(context)
    case AttrObject(attrs) => attrs
    case NoAttrs => []
  }

  /** `{ src, ...extraAttrs }`, then the computed alt only when no `alt` came along: `src` first and names unique. */
  function MergedAttrs(src: string, finalAlt: Option<string>, extras: seq<Attr>): (m: seq<Attr>)
    ensures m != [] && m[0].0 == "src" && UniqueNames(m)
  {
    var spread := AttrSetAll([("src", src)], extras);
    SetAllKeepsFirst([("src", src)], extras);
    SetAllKeepsUnique([("src", src)], extras);
    if GetAttr(spread, "alt").None? && finalAlt.Some? then
      SetKeepsUnique(spread, "alt", finalAlt.value);
      AttrSet(spread, "alt", finalAlt.value)
    else
      spread
  }

  /** The image token's attributes: the merged ones, then `style` set when there are dimensions. */
  function ImageAttrs(merged: seq<Attr>, dims: string): seq<Attr> {
    if dims != "" then AttrSet(merged, "style", DisplayStyle(dims)) else merged
  }

  /**
   * What the extra attributes may override: `src` and `alt` come from them when
   * they have them; `style` is the computed one exactly when there are
   * dimensions; every other extra attribute is kept with its value.
   */
  lemma ImageAttrsPrecedence(src: string, finalAlt: Option<string>, extras: AttrList, dims: string)
    ensures var attrs := ImageAttrs(MergedAttrs(src, finalAlt, extras), dims);
      && GetAttr(attrs, "src") == (if GetAttr(extras, "src").Some? then GetAttr(extras, "src") else Some(src))
      && GetAttr(attrs, "alt") == (if GetAttr(extras, "alt").Some? then GetAttr(extras, "alt") else finalAlt)
      && GetAttr(attrs, "style") == (if dims != "" then Some(DisplayStyle(dims)) else GetAttr(extras, "style"))
      && attrs != [] && attrs[0].0 == "src" && UniqueNames(attrs)
  {
    var spread := AttrSetAll([("src", src)], extras);
    var merged := MergedAttrs(src, finalAlt, extras);
    GetAfterSetAll([("src", src)], extras, "src");
    GetAfterSetAll([("src", src)], extras, "alt");
    GetAfterSetAll([("src", src)], extras, "style");
    if GetAttr(spread, "alt").None? && finalAlt.Some? {
      GetAfterSet(spread, "alt", finalAlt.value, "src");
      GetAfterSet(spread, "alt", finalAlt.value, "alt");
      GetAfterSet(spread, "alt", finalAlt.value, "style");
    }
    if dims != "" {
      GetAfterSet(merged, "style", DisplayStyle(dims), "src");
      GetAfterSet(merged, "style", DisplayStyle(dims), "alt");
      GetAfterSet(merged, "style", DisplayStyle(dims), "style");
      SetKeepsUnique(merged, "style", DisplayStyle(dims));
    }
  }

  /** Every extra attribute other than `src`, `alt` and `style` reaches the token with its value. */
  lemma ImageAttrsKeepExtras(src: string, finalAlt: Option<string>, extras: AttrList, dims: string, name: string)
    requires name != "src" && name != "alt" && name != "style"
    ensures GetAttr(ImageAttrs(MergedAttrs(src, finalAlt, extras), dims), name) == GetAttr(extras, name)
  {
    var spread := AttrSetAll([("src", src)], extras);
    var merged := MergedAttrs(src, finalAlt, extras);
    GetAfterSetAll([("src", src)], extras, name);
    if GetAttr(spread, "alt").None? && finalAlt.Some? {
      GetAfterSet(spread, "alt", finalAlt.value, name);
    }
    if dims != "" {
      GetAfterSet(merged, "style", DisplayStyle(dims), name);
    }
  }

  /** The image token `processImageEmbed` pushes, with its one text child holding the merged alt. */
  function ImageToken(innerParts: seq<string>, rawTarget: string, img: ImageEmbed, svc: Services): Token {
    var fields := ResolveFields(innerParts);
    var src := svc.escapeHtml(ImageUrl(rawTarget, img, svc));
    var finalAlt := FinalAltText(fields.altText, rawTarget, img, svc);
    var extras := ExtraAttrs(img.htmlAttributes, AttrContext(src, finalAlt, fields.dimensions, "image"));
    var merged := MergedAttrs(src, finalAlt, extras);
    var altToken := NewToken("text", "", 0).(content := GetAttr(merged, "alt"));
    NewToken("image", "img", 0).(attrs := ImageAttrs(merged, fields.dimensions), children := [altToken])
  }

  /** The child text token carries exactly the token's `alt` attribute (absent when there is none). */
  lemma ImageTokenAltChild(innerParts: seq<string>, rawTarget: string, img: ImageEmbed, svc: Services)
    ensures var t := ImageToken(innerParts, rawTarget, img, svc);
      t.kind == "image" && |t.children| == 1 && t.children[0].content == GetAttr(t.attrs, "alt")
  {
    var fields := ResolveFields(innerParts);
    var src := svc.escapeHtml(ImageUrl(rawTarget, img, svc));
    var finalAlt := FinalAltText(fields.altText, rawTarget, img, svc);
    var extras := ExtraAttrs(img.htmlAttributes, AttrContext(src, finalAlt, fields.dimensions, "image"));
    var merged := MergedAttrs(src, finalAlt, extras);
    if fields.dimensions != "" {
      GetAfterSet(merged, "style", DisplayStyle(fields.dimensions), "alt");
    }
  }

  /**
   * `token.attrSet(key, value)` for each entry of an object, on a fresh token:
   * as the keys are distinct, each one is appended, so the token ends up with
   * the entries in order.
   */
  method SetEach(entries: seq<Attr>) returns (attrs: seq<Attr>)
    requires UniqueNames(entries)
    ensures attrs == entries
  {
    attrs := [];
    var i := 0;
    while i < |entries|
      invariant i <= |entries|
      invariant attrs == entries[..i]
    {
      PrefixLacksNext(entries, i);
      SetAppends(attrs, entries[i].0, entries[i].1);
      attrs := AttrSet(attrs, entries[i].0, entries[i].1);
      assert entries[..i + 1] == entries[..i] + [entries[i]];
      i := i + 1;
    }
    assert entries[..i] == entries;
  }

  /** `processImageEmbed`: pushes the image token, its attributes set one `attrSet` at a time, and reports success. */
  method ProcessImageEmbed(state: InlineState, innerParts: seq<string>, rawTarget: string,
                           img: ImageEmbed, svc: Services) returns (ok: bool)
    modifies state`tokens
    ensures ok
    ensures state.tokens == old(state.tokens) + [ImageToken(innerParts, rawTarget, img, svc)]
  {
    var fields := ResolveFields(innerParts);
    var srcAttr := svc.escapeHtml(ImageUrl(rawTarget, img, svc));
    var finalAltText := FinalAltText(fields.altText, rawTarget, img, svc);
    var extraAttrs := ExtraAttrs(img.htmlAttributes, AttrContext(srcAttr, finalAltText, fields.dimensions, "image"));
    var mergedAttrs := MergedAttrs(srcAttr, finalAltText, extraAttrs);
    var attrs := SetEach(mergedAttrs);
    var tokenAltText := NewToken("text", "", 0).(content := GetAttr(mergedAttrs, "alt"));
    if fields.dimensions != "" {
      attrs := AttrSet(attrs, "style", DisplayStyle(fields.dimensions));
    }
    state.Push(NewToken("image", "img", 0).(attrs := attrs, children := [tokenAltText]));
    ok := true;
  }

  // ---------------------------------------------------------------------
  // Wikilinks
  // ---------------------------------------------------------------------

  /** The link label before post-processing: the parts after the first rejoined with `|`, or the target alone. */
  function LinkLabel(innerParts: seq<string>, rawTarget: string): string {
    if |innerParts| > 1 then Join(innerParts[1..], "|") else rawTarget
  }

  /** `target|label`: the label is all of `label`, pipes included. */
  lemma LabelAfterFirstPipe(target: string, labelText: string, rawTarget: string)
    requires '|' !in target
    ensures LinkLabel(Split(target + "|" + labelText, '|'), rawTarget) == labelText
  {
    SplitAround(target, '|', labelText);
    SplitWithout(target, '|');
    var parts := Split(target + "|" + labelText, '|');
    assert parts[1..] == Split(labelText, '|');
    SplitJoin(labelText, '|');
  }

  /** Content without a pipe: the label is the target. */
  lemma LabelWithoutPipe(inner: string, rawTarget: string)
    requires '|' !in inner
    ensures LinkLabel(Split(inner, '|'), rawTarget) == rawTarget
  {
    SplitWithout(inner, '|');
  }

  /** The href of a wikilink before escaping: a leading slash when absolute links are forced, no trailing slash (a lone `/` aside). */
  function LinkUrl(rawTarget: string, page: PageLink, svc: Services): (r: string)
    ensures page.forceAllLinksAbsolute ==> StartsWith(r, "/")
    ensures !page.forceAllLinksAbsolute ==> r == "/" || !StartsWith(r, "/")
    ensures r == "/" || !EndsWith(r, "/")
  {
    var processedTarget := svc.normalize(page.postProcessLinkTarget(rawTarget));
    var baseUrl := if page.forceAllLinksAbsolute then page.absoluteBaseURL else page.relativeBaseURL;
    UrlJoin([baseUrl, processedTarget, page.uriSuffix], page.forceAllLinksAbsolute, false)
  }

  /**
   * The href's path segments are those of the base URL the option selects,
   * then those of the hooked and normalised target, then those of the suffix.
   */
  lemma LinkUrlSegments(rawTarget: string, page: PageLink, svc: Services)
    ensures Segments(LinkUrl(rawTarget, page, svc))
         == Segments(if page.forceAllLinksAbsolute then page.absoluteBaseURL else page.relativeBaseURL)
          + Segments(svc.normalize(page.postProcessLinkTarget(rawTarget)))
          + Segments(page.uriSuffix)
  {
    var baseUrl := if page.forceAllLinksAbsolute then page.absoluteBaseURL else page.relativeBaseURL;
    var processedTarget := svc.normalize(page.postProcessLinkTarget(rawTarget));
    UrlJoinSegments([baseUrl, processedTarget, page.uriSuffix], page.forceAllLinksAbsolute, false);
    AllSegmentsOfThree(baseUrl, processedTarget, page.uriSuffix);
  }

  /** The three tokens `processWikilink` pushes. */
  function LinkTokens(innerParts: seq<string>, rawTarget: string, page: PageLink, svc: Services): seq<Token> {
    var processedLabel := page.postProcessLinkLabel(LinkLabel(innerParts, rawTarget));
    var href := svc.escapeHtml(LinkUrl(rawTarget, page, svc));
    var labelToken :=
      if page.allowLinkLabelFormatting
      then NewToken("html_inline", "", 0).(content := Some(svc.renderInline(processedLabel)))
      else NewToken("text", "", 0).(content := Some(processedLabel));
    [NewToken("link_open", "a", 1).(attrs := [("href", href)]), labelToken, NewToken("link_close", "a", -1)]
  }

  /**
   * A wikilink is an opening `a` carrying the href, the label as rendered
   * markup or as text, and the matching close; the nesting balances.
   */
  lemma LinkTokensShape(innerParts: seq<string>, rawTarget: string, page: PageLink, svc: Services)
    ensures var ts := LinkTokens(innerParts, rawTarget, page, svc);
      && |ts| == 3
      && ts[0].kind == "link_open" && ts[2].kind == "link_close"
      && ts[0].tag == "a" && ts[2].tag == "a"
      && ts[0].nesting + ts[1].nesting + ts[2].nesting == 0
      && GetAttr(ts[0].attrs, "href") == Some(svc.escapeHtml(LinkUrl(rawTarget, page, svc)))
      && ts[1].kind == (if page.allowLinkLabelFormatting then "html_inline" else "text")
  {
  }

  /** In `target|label` the label text comes from `label` alone, whatever the target. */
  lemma LinkLabelFromPipe(target: string, labelText: string, rawTarget: string, page: PageLink, svc: Services)
    requires '|' !in target
    ensures var ts := LinkTokens(Split(target + "|" + labelText, '|'), rawTarget, page, svc);
      ts[1].content == Some(if page.allowLinkLabelFormatting
                            then svc.renderInline(page.postProcessLinkLabel(labelText))
                            else page.postProcessLinkLabel(labelText))
  {
    LabelAfterFirstPipe(target, labelText, rawTarget);
  }

  /** `processWikilink`: pushes the `link_open`, label and `link_close` tokens and reports success. */
  method ProcessWikilink(state: InlineState, innerParts: seq<string>, rawTarget: string,
                         page: PageLink, svc: Services) returns (ok: bool)
    modifies state`tokens
    ensures ok
    ensures state.tokens == old(state.tokens) + LinkTokens(innerParts, rawTarget, page, svc)
  {
    var linkLabel := LinkLabel(innerParts, rawTarget);
    var processedLabel := page.postProcessLinkLabel(linkLabel);
    var href := svc.escapeHtml(LinkUrl(rawTarget, page, svc));
    state.Push(NewToken("link_open", "a", 1).(attrs := [("href", href)]));
    if page.allowLinkLabelFormatting {
      var htmlLabel := svc.renderInline(processedLabel);
      state.Push(NewToken("html_inline", "", 0).(content := Some(htmlLabel)));
    } else {
      state.Push(NewToken("text", "", 0).(content := Some(processedLabel)));
    }
    state.Push(NewToken("link_close", "a", -1));
    ok := true;
  }
}

=== FILE: wikilinks.dfy ===
/**
 * The plugin entry point of index.js: option setup and the inline rule that
 * recognises `[[...]]` wikilinks and `![[...]]` embeds, hands them to the
 * emitters of utils.js and advances the parser past the closing `]]`.
 */
module Wikilinks {
  import opened Wrappers
  import opened JsString
  import opened MarkdownIt
  import opened Config
  import opened Utils

  /** A recognised construct: embed or link, where its closing `]]` starts, and its trimmed inner content. */
  datatype Match = Match(isEmbed: bool, close: nat, inner: string)

  /** Where the inner content starts: past `![[` for an embed, past `[[` for a link. */
  function ContentStart(pos: nat, isEmbed: bool): nat {
    pos + (if isEmbed then 3 else 2)
  }

  /** No `]]` starts at any index in `[from, to)`. */
  predicate NoCloser(src: string, from: nat, to: nat) {
    forall j | from <= j < to :: !OccursAt(src, j, "]]")
  }

  /**
   * What the rule recognises at `pos`: an opener, the first `]]` after it
   * (which must start before `posMax`), and non-blank content between them.
   */
  function Scan(src: string, pos: nat, posMax: nat): Option<Match> {
    var isEmbed := OccursAt(src, pos, "![[");
    if !isEmbed && !OccursAt(src, pos, "[[") then None
    else
      var start := ContentStart(pos, isEmbed);
      match IndexOf(src, "]]", start)
      case None => None
      case Some(close) =>
        if close >= posMax then None
        else
          var inner := Trim(src[start..close]);
          if inner == [] then None else Some(Match(isEmbed, close, inner))
  }

  /**
   * A match has an opener at the cursor that tells embed from link, the
   * first `]]` after the opener starting before `posMax`, and non-blank
   * trimmed content between the two.
   */
  lemma ScanSound(src: string, pos: nat, posMax: nat)
    ensures var m := Scan(src, pos, posMax);
      m.Some? ==>
        && (m.value.isEmbed <==> OccursAt(src, pos, "![["))
        && (OccursAt(src, pos, "![[") || OccursAt(src, pos, "[["))
        && var start := ContentStart(pos, m.value.isEmbed);
        && start <= m.value.close < posMax
        && OccursAt(src, m.value.close, "]]")
        && NoCloser(src, start, m.value.close)
        && m.value.inner == Trim(src[start..m.value.close])
        && m.value.inner != []
  {
  }

  /**
   * The converse of `ScanSound`: an opener, a first `]]` after it that
   * starts before `posMax`, and non-blank content between them make a match.
   */
  lemma ScanAccepts(src: string, pos: nat, posMax: nat, isEmbed: bool, close: nat, body: string)
    requires OccursAt(src, pos, "![[") == isEmbed
    requires OccursAt(src, pos, "![[") || OccursAt(src, pos, "[[")
    requires ContentStart(pos, isEmbed) <= close < posMax && OccursAt(src, close, "]]")
    requires NoCloser(src, ContentStart(pos, isEmbed), close)
    requires src[ContentStart(pos, isEmbed)..close] == body && Trim(body) != []
    ensures Scan(src, pos, posMax) == Some(Match(isEmbed, close, Trim(body)))
  {
    IndexOfFirst(src, "]]", ContentStart(pos, isEmbed), close);
  }

  /** Without `![[` or `[[` at the cursor nothing is recognised. */
  lemma ScanNeedsOpener(src: string, pos: nat, posMax: nat)
    requires !OccursAt(src, pos, "![[") && !OccursAt(src, pos, "[[")
    ensures Scan(src, pos, posMax).None?
  {
  }

  /** Without a `]]` starting between the opener and `posMax` nothing is recognised. */
  lemma ScanNeedsCloser(src: string, pos: nat, posMax: nat)
    requires NoCloser(src, ContentStart(pos, OccursAt(src, pos, "![[")), posMax)
    ensures Scan(src, pos, posMax).None?
  {
  }

  /** When the content up to the first `]]` is blank, nothing is recognised. */
  lemma ScanRejectsBlank(src: string, pos: nat, posMax: nat, close: nat)
    requires OccursAt(src, pos, "![[") || OccursAt(src, pos, "[[")
    requires var start := ContentStart(pos, OccursAt(src, pos, "![["));
      && start <= close && OccursAt(src, close, "]]")
      && NoCloser(src, start, close)
      && (forall i | start <= i < close :: IsWhiteSpace(src[i]))
    ensures Scan(src, pos, posMax).None?
  {
    var start := ContentStart(pos, OccursAt(src, pos, "![["));
    var r := IndexOf(src, "]]", start);
    if r.Some? && r.value < posMax {
      assert r.value == close;
      var body := src[start..close];
      assert forall i | 0 <= i < |body| :: IsWhiteSpace(body[i]) by {
        forall i | 0 <= i < |body| ensures IsWhiteSpace(body[i]) {
          assert body[i] == src[start + i];
        }
      }
    }
  }

  /**
   * The closer may run past `posMax`: in `[[a]]` with `posMax` 4 the closer
   * starts at 3, so the cursor moves to 5, beyond the bound.
   */
  lemma CloserMayStraddle()
    ensures var m := Scan("[[a]]", 0, 4); m.Some? && m.value.close + 2 == 5
  {
    StraddleOpener();
    StraddleCloser();
    StraddleBody();
    ScanAccepts("[[a]]", 0, 4, false, 3, "a");
  }

  /** `[[a]]` opens a link, not an embed. */
  lemma StraddleOpener()
    ensures !OccursAt("[[a]]", 0, "![[") && OccursAt("[[a]]", 0, "[[")
  {
    assert "[[a]]"[0] != '!';
    assert "[[a]]"[..2] == "[[";
  }

  /** The first `]]` in `[[a]]` after the opener starts at 3. */
  lemma StraddleCloser()
    ensures OccursAt("[[a]]", 3, "]]") && NoCloser("[[a]]", 2, 3)
  {
    assert "[[a]]"[3..5] == "]]";
    assert "[[a]]"[2..4][0] == 'a';
  }

  /** The content of `[[a]]` is `a`, which trimming keeps. */
  lemma StraddleBody()
    ensures "[[a]]"[2..3] == "a" && Trim("a") == "a"
  {
    TrimUntouched("a");
  }

  /** The trimmed first pipe-separated part: the target of a link or embed. */
  function RawTarget(m: Match): string {
    Trim(Split(m.inner, '|')[0])
  }

  /** The target is the trimmed text before the first pipe. */
  lemma RawTargetBeforePipe(isEmbed: bool, close: nat, target: string, rest: string)
    requires '|' !in target
    ensures RawTarget(Match(isEmbed, close, target + "|" + rest)) == Trim(target)
  {
    SplitAround(target, '|', rest);
    SplitWithout(target, '|');
  }

  /** Without a pipe the target is the whole (already trimmed) content. */
  lemma RawTargetWithoutPipe(m: Match)
    requires '|' !in m.inner
    ensures RawTarget(m) == Trim(m.inner)
  {
    SplitWithout(m.inner, '|');
  }

  /**
   * The tokens emitted for a recognised construct: an image embed when it is
   * `![[...]]` and the target has a listed image extension, a wikilink
   * otherwise (including every other embed).
   */
  function Emit(m: Match, page: PageLink, img: ImageEmbed, svc: Services): seq<Token> {
    var innerParts := Split(m.inner, '|');
    var rawTarget := RawTarget(m);
    var embedType := if m.isEmbed then CheckEmbedType(rawTarget, img.imageFileExt) else Link;
    match embedType
    case Image => [ImageToken(innerParts, rawTarget, img, svc)]
    case Link => LinkTokens(innerParts, rawTarget, page, svc)
  }

  /**
   * A construct becomes one `image` token exactly when it is an embed whose
   * target has an image extension; anything else becomes an opening link, a
   * label and a closing link.
   */
  lemma EmitShape(m: Match, page: PageLink, img: ImageEmbed, svc: Services)
    ensures var ts := Emit(m, page, img, svc);
      && ts != []
      && (ts[0].kind == "image" <==> m.isEmbed && CheckEmbedType(RawTarget(m), img.imageFileExt) == Image)
      && (ts[0].kind == "image" ==> |ts| == 1 && |ts[0].children| == 1)
      && (ts[0].kind != "image" ==> |ts| == 3 && ts[0].kind == "link_open" && ts[2].kind == "link_close")
  {
    var innerParts := Split(m.inner, '|');
    var rawTarget := RawTarget(m);
    EmitCases(m, page, img, svc);
    if m.isEmbed && CheckEmbedType(rawTarget, img.imageFileExt) == Image {
      ImageTokenAltChild(innerParts, rawTarget, img, svc);
    } else {
      LinkTokensShape(innerParts, rawTarget, page, svc);
      assert "link_open"[0] != "image"[0];
    }
  }

  /** `Emit` with its `switch` resolved. */
  lemma EmitCases(m: Match, page: PageLink, img: ImageEmbed, svc: Services)
    ensures Emit(m, page, img, svc)
         == if m.isEmbed && CheckEmbedType(RawTarget(m), img.imageFileExt) == Image
            then [ImageToken(Split(m.inner, '|'), RawTarget(m), img, svc)]
            else LinkTokens(Split(m.inner, '|'), RawTarget(m), page, svc)
  {
  }

  /**
   * The scanning steps of `wikilinksRule`: match the opener, find the first
   * `]]` after it, reject a closer at or past `posMax`, trim the content
   * between them and reject it when blank.
   */
  method Recognize(src: string, pos0: nat, posMax: nat) returns (m: Option<Match>)
    ensures m == Scan(src, pos0, posMax)
  {
    var pos := pos0;
    var isEmbed := false;
    if OccursAt(src, pos, "![[") {
      isEmbed := true;
      pos := pos + 3;
    } else if OccursAt(src, pos, "[[") {
      pos := pos + 2;
    } else {
      return None;
    }
    var closePos := IndexOf(src, "]]", pos);
    if closePos.None? || closePos.value >= posMax {
      return None;
    }
    var innerContent := Trim(src[pos..closePos.value]);
    if innerContent == [] {
      return None;
    }
    m := Some(Match(isEmbed, closePos.value, innerContent));
  }

  /** The alt-text hook installed when the user gave none: the text unchanged. */
  function KeepAltText(altText: string): string {
    altText
  }

  /** The plugin instance: the set-up options and library services its inline rule works with. */
  class WikilinksPlus {
    const options: Options
    const svc: Services

    /**
     * `wikilinksPlus(md, userOptions)` with `merged` the options already
     * merged over the defaults: installs the identity alt-text hook when the
     * user gave none, then normalises the options in place.
     */
    constructor (merged: Options, userGaveAltHook: bool, svc: Services)
      modifies merged
      ensures options == merged && this.svc == svc
      ensures merged.pageLink == NormalizedPageLink(old(merged.pageLink), svc)
      ensures merged.imageEmbed == NormalizedImageEmbed(
        if userGaveAltHook then old(merged.imageEmbed)
        else old(merged.imageEmbed).(postProcessAltText := KeepAltText), svc)
    {
      options := merged;
      this.svc := svc;
      new;
      var page0, img0 := merged.pageLink, merged.imageEmbed;
      var img1 := if userGaveAltHook then img0 else img0.(postProcessAltText := KeepAltText);
      if !userGaveAltHook {
        merged.imageEmbed := merged.imageEmbed.(postProcessAltText := KeepAltText);
      }
      assert merged.pageLink == page0 && merged.imageEmbed == img1;
      NormalizeOptions(merged, svc);
      assert merged.pageLink == NormalizedPageLink(page0, svc);
      assert merged.imageEmbed == NormalizedImageEmbed(img1, svc);
    }

    /**
     * `wikilinksRule(state, silent)`: on a recognised construct, outside
     * silent mode, moves the cursor past the closing `]]` and pushes the
     * construct's tokens; otherwise changes nothing. The cursor always moves
     * forward on success.
     */
    method WikilinksRule(state: InlineState, silent: bool) returns (matched: bool)
      modifies state`pos, state`tokens
      ensures var m := Scan(state.src, old(state.pos), state.posMax);
        && (matched <==> !silent && m.Some?)
        && (matched ==> && state.pos == m.value.close + 2
                        && old(state.pos) < state.pos
                        && state.tokens == old(state.tokens)
                           + Emit(m.value, options.pageLink, options.imageEmbed, svc))
        && (!matched ==> state.pos == old(state.pos) && state.tokens == old(state.tokens))
    {
      var pos0, tokens0 := state.pos, state.tokens;
      var m := Recognize(state.src, pos0, state.posMax);
      if m.None? {
        return false;
      }
      if silent {
        return false;
      }
      ScanSound(state.src, pos0, state.posMax);
      var close := m.value.close;
      assert pos0 < close + 2;
      state.pos := close + 2;
      matched := EmitMatch(state, m.value);
      assert state.tokens == tokens0 + Emit(m.value, options.pageLink, options.imageEmbed, svc);
    }

    /**
     * The `switch` on the embed type: an image embed goes to
     * `processImageEmbed`, everything else to `processWikilink`.
     */
    method EmitMatch(state: InlineState, m: Match) returns (matched: bool)
      modifies state`tokens
      ensures matched
      ensures state.tokens == old(state.tokens) + Emit(m, options.pageLink, options.imageEmbed, svc)
    {
      EmitCases(m, options.pageLink, options.imageEmbed, svc);
      var innerParts := Split(m.inner, '|');
      var rawTarget := Trim(innerParts[0]);
      var embedType := if m.isEmbed then CheckEmbedType(rawTarget, options.imageEmbed.imageFileExt) else Link;
      match embedType {
        case Image =>
          matched := ProcessImageEmbed(state, innerParts, rawTarget, options.imageEmbed, svc);
        case Link =>
          matched := ProcessWikilink(state, innerParts, rawTarget, options.pageLink, svc);
      }
    }
  }
}

=== FILE: wrappers.dfy ===
/** The optional value used wherever the source distinguishes `undefined` (or `-1`) from a value. */
module Wrappers {

  datatype Option<+T> = None | Some(value: T)
}
